=== FILE: README.md ===
# Bartender game — a verified model

The Bartender game is a browser game in which the player mixes a cocktail. The player
drags ingredients into a glass and turns alcohol bottles upside down before pouring them.
They stir the glass and then press "check" before the level's timer runs out. Each level
plays one recipe from a catalog. The game keeps per-level statistics, and a statistics
panel sums them up.

The game object exists in three copies:

- `bartenderGame.js` is the copy that ships.
- `game.js` is a near-identical copy. It has no previous-level button, and it adds a
  restart button.
- `reservgame.js` is an older variant. It tolerates one stir either way and counts every
  wrong glass as a failed attempt. It has no pause and no replay.

The model keeps the game's own split, with one Dafny module per concern:

- `Cocktails` (cocktails.dfy) holds the values every copy shares:
  - a pour, a recipe line and a recipe;
  - the eight "alcohol" types that must be flipped;
  - the `|| 3` default for stirs and the `|| 60` default for the time limit;
  - the built-in fallback catalog;
  - the notices the game shows.
- `Validator` (validator.dfy) is the solution checker:
  - the specification function `Judge` (fail-fast, in recipe order);
  - the two-loop `CheckIngredients` method proved equal to it;
  - both stir policies.
- `Progress` (progress.dfy) is the statistics store:
  - the rule each game event applies to a level's entry;
  - the running-minimum best time;
  - an order-independent sum over the statistics map, with the loop that computes it;
  - `Math.round(a / b)` written out on integers;
  - the statistics panel's figures.
- `Clock` (clock.dfy) is `formatTime`, together with a parser that reads its output
  back.
- `Game` (game.dfy) is the class `BartenderGame` of `bartenderGame.js` and `game.js`.
  The two copies agree line for line on every operation they share. `previousLevel`
  exists only in the first and `restartGame` only in the second. The class has:
  - the glass, the session flags and the progress fields, changed in place;
  - the one-second interval as an explicit `Tick`;
  - each confirmation dialog as a boolean argument.
- `ReserveGame` (reserve.dfy) is the class of `reservgame.js`.

Each class keeps a `Valid()` invariant, and every operation preserves it:

- the glass holds at most 8 pours;
- no alcohol was poured from an upright bottle;
- the list of completed levels has no duplicates;
- the current level lies in `[1, totalLevels]` and has an entry that agrees with the
  list;
- the session flags form one of the allowed phases.

## Model

| member | source | states |
|---|---|---|
| Cocktails.StirsRequired | bartenderGame.js:797-805 | the required stirs are the recipe's value when it is non-zero, and 3 when it is missing or 0 (`\|\| 3`); never 0 |
| Cocktails.TimeLimit | bartenderGame.js:1197 | the level time is the recipe's limit when it is non-zero, and 60 when it is missing or 0 (`\|\| 60`); never 0 |
| Cocktails.FlipOf | bartenderGame.js:621 | `flipStates[type] \|\| false`: a bottle never toggled is upright, otherwise its recorded state |
| Cocktails.AddOnce | bartenderGame.js:205-207 | the level is in the list afterwards, nothing else is added, a duplicate-free list stays duplicate-free, and a level already present leaves the list unchanged |
| Validator.CountOf | bartenderGame.js:765-773 | the number of pours of a type never exceeds the glass size |
| Validator.FlippedCountOf | bartenderGame.js:765-773 | flipped pours of a type never exceed all pours of that type |
| Validator.CountAppend | bartenderGame.js:765-773 | both counts are additive over a glass split in two |
| Validator.Judge | bartenderGame.js:775-794 | a `Missing` verdict names a recipe line whose pours fall short of its quantity; a `NotFlipped` verdict names an alcohol line whose flipped pours fall short |
| Validator.JudgeAllPresent | bartenderGame.js:775-794 | the check passes exactly when every recipe line has enough pours, and, for an alcohol, enough flipped pours |
| Validator.JudgeFirstUnmet | bartenderGame.js:775-791 | a failed check names the first unmet recipe line in recipe order; a quantity shortfall is reported before a missing flip |
| Validator.ExtraPoursNeverPenalised | bartenderGame.js:775-794 | a passing glass still passes after any further pours, so surplus and unlisted ingredients are never penalised |
| Validator.CheckIngredients | bartenderGame.js:761-795 | the two counting loops and the fail-fast walk return exactly the verdict of `Judge`; it passes iff every line is met |
| Validator.CheckStirs | bartenderGame.js:797-805 | the stir check passes exactly when the count reaches the required stirs, 3 when the recipe gives none or 0 |
| Validator.CheckStirsWithTolerance | reservgame.js:737-742 | the older stir check passes exactly when the count is within one of the required stirs, so 2 to 4 when the recipe gives none or 0 |
| Validator.StirringMoreNeverHurts | bartenderGame.js:797-805 | under the shipped stir rule, more stirs never turn a pass into a failure |
| Validator.StirPoliciesCompared | reservgame.js:737-742 | the tolerant rule accepts one stir short and rejects two over, the shipped rule does the opposite, and both accept exactly the required count and one more |
| Validator.PoursMeet | bartenderGame.js:775-791 | pouring a recipe line literally, flipping alcohol, meets that line |
| Validator.FollowingTheRecipePasses | bartenderGame.js:761-795 | pouring every line of any recipe as written always passes the ingredient check |
| Progress.RoundDiv | game.js:447-449 | `Math.round(a / b)` for b > 0 is the integer nearest to a/b, with halves rounded up |
| Progress.RoundDivExact | game.js:447-449 | rounding an exact quotient gives the quotient |
| Progress.RoundDivMonotone | game.js:447-449 | rounding preserves order of numerators |
| Progress.RunningBest | bartenderGame.js:190-199 | the new best is present, no later than the old best and no later than the new time, and is one of the two |
| Progress.BestAsWritten | bartenderGame.js:190-199 | the best time as written (`!best \|\| t < best`) is always set, is no later than the new time, and is no later than a truthy old best |
| Progress.BestAsWrittenAgreesAwayFromZero | bartenderGame.js:190-199 | the falsy test agrees with the running minimum whenever the old best is not 0 |
| Progress.ZeroBestIsLost | bartenderGame.js:190-199 | a best time of 0 is replaced by a slower time under the falsy test, and kept under the running minimum |
| Progress.AfterCompletion | bartenderGame.js:171-196 | a win marks the level completed at 100%, adds one attempt and the time to the total, and makes the best time the running minimum |
| Progress.AfterAttempt | bartenderGame.js:214-246 | a timed-out attempt adds one attempt and the non-negative elapsed time, keeps the best time and the completed flag, and zeroes the rate of an uncompleted level |
| Progress.AfterCompletionUntimed | reservgame.js:175-196 | the older win rule is the same as the shipped one, except that the time total is not touched |
| Progress.AfterFailure | reservgame.js:231-258 | a failure adds one attempt and keeps best and total; the rate is a percentage, 0 for an uncompleted level, and at least 50 for a completed one |
| Progress.FailureRateBounds | reservgame.js:248-251 | `round((attempts-1 if completed else 0) / attempts * 100)` lies in [0, 100], is 0 when not completed, and is at least 50 when completed with two or more attempts |
| Progress.Synced | bartenderGame.js:94-115 | the entry is created if missing, and its completed flag follows the list; counters, best time and rate are kept |
| Progress.UpdatesKeepWellFormed | bartenderGame.js:171-246 | every entry update keeps counters non-negative, the rate a percentage and the best time non-negative |
| Progress.SyncedAgreeing | bartenderGame.js:94-115 | syncing an entry whose flag already agrees changes nothing |
| Progress.ProgressedTransitive | bartenderGame.js:171-246 | "no level lost, no count lowered, no best worsened" composes across steps |
| Progress.UpdatesProgress | bartenderGame.js:171-246 | each update applied to one level is progress: attempts only grow and best times only improve |
| Progress.AnnouncedLevelRecord | bartenderGame.js:819-820 | the record message needs a truthy best: with none or 0 it never shows, otherwise it shows exactly when the time beats that best |
| Progress.LevelRecordNeverAnnounced | bartenderGame.js:811-823 | the record message, which compares the time with the best after it was updated, can never appear: not after the update as written (`!best \|\| t < best`, bartenderGame.js:190, reservgame.js:193), nor after the running-minimum update (also reservgame.js:744-766) |
| Progress.LevelRecordMeansBestImproved | bartenderGame.js:819-823 | a record under the intended comparison, against the best held before the win, is exactly a strict improvement of the stored best |
| Progress.Add | game.js:435-442 | one entry adds its attempts and time; it adds one completed level when completed, and its best time only when it is completed with a truthy best (also reservgame.js:128-139) |
| Progress.TallyOf | game.js:431-442 | the totals over all entries: zero for an empty map, with at most one completed level per entry and at most one timed best per completed level |
| Progress.TallyRemove | game.js:435-442 | removing a key subtracts that entry's contribution from the order-independent sum over levels |
| Progress.TallyInsert | game.js:435-442 | adding a new key adds that entry's contribution |
| Progress.TallyBounds | game.js:435-442 | over well-formed entries, total attempts, total time and the best-time sum are non-negative, and completed levels number at most the entries |
| Progress.KeysInRange | game.js:439-449 | a statistics map whose keys are levels 1..n has at most n entries |
| Progress.SumStats | game.js:431-442 | the loop over the statistics map computes exactly the order-independent sum |
| Progress.OverviewOf | game.js:444-472 | games played is the sum of attempts; success is completed/totalLevels·100 rounded (0 without levels); the average is total time over attempts rounded, shown only when there are attempts |
| Progress.ReserveOverviewOf | reservgame.js:125-170 | the same success figure; the average is taken over the best times of completed levels that have one |
| Progress.SuccessPercentBounds | game.js:446-452 | with at most totalLevels completed levels, success is in [0, 100], it is 100 when all are completed, and below 100 otherwise when there are fewer than 200 levels |
| Progress.SuccessPercentRoundsUp | game.js:446-452 | with 200 levels and 199 completed, the figure already reads 100% |
| Progress.AverageTimeNonNegative | game.js:463-469 | the average shown is never negative, under either average rule |
| Clock.Digits | bartenderGame.js:392-396 | the minutes are printed as decimal digits without leading zeros |
| Clock.Pad2 | bartenderGame.js:392-396 | `padStart(2, "0")` yields two digits that read back as the seconds |
| Clock.DigitsValueOfDigits | bartenderGame.js:392-396 | the printed minutes read back as the number |
| Clock.FormatTime | bartenderGame.js:392-396 | the text ends in a colon followed by two characters |
| Clock.ColonAt | bartenderGame.js:392-396 | locates the first colon, or says there is none |
| Clock.FormatTimeRoundTrip | bartenderGame.js:392-396 | reading a formatted time back gives the number of seconds |
| Clock.FormatTimeInjective | bartenderGame.js:392-396 | two different times are never displayed the same |
| Game.InitialLevel | bartenderGame.js:45-68 | the start level is the saved one when it is within the catalog, the last level when it is above, 1 when it is missing, 0 or below, and always in [1, totalLevels] |
| Game.BartenderGame.SaveGameState | bartenderGame.js:398-407 | the save holds the level, completed list, stats and overall best; it satisfies `Game.WellFormedSave`, and reading it back resumes the same level with the same progress |
| Game.BartenderGame.constructor | bartenderGame.js:2-70 | the saved progress is read back, the level is clamped and loaded, and the invariant holds with the session idle |
| Game.BartenderGame.ResetGlass | bartenderGame.js:1225-1239 | the glass is empty with no stirs, whatever it held, so resetting twice is resetting once |
| Game.BartenderGame.AddIngredientToGlass | bartenderGame.js:665-703 | a full glass or an upright alcohol leaves the glass unchanged; otherwise exactly one pour is appended at the end, and the glass invariant holds |
| Game.BartenderGame.DropIngredient | bartenderGame.js:648-662 | pours are accepted only while the level runs, with the bottle's current flip state |
| Game.BartenderGame.ToggleFlip | bartenderGame.js:570-576 | only while running, only an alcohol bottle turns over, and no other bottle changes |
| Game.BartenderGame.StirGlass | bartenderGame.js:864-887 | an empty glass keeps its stir count; otherwise the count goes up by exactly one |
| Game.BartenderGame.PressStir | bartenderGame.js:1000-1009 | the stir button stirs only while the level runs |
| Game.BartenderGame.PressReset | bartenderGame.js:981-992 | only a confirmed reset empties the glass |
| Game.BartenderGame.StartTimer | bartenderGame.js:435-442 | the level is running and started, not paused |
| Game.BartenderGame.StopTimer | bartenderGame.js:455-461 | the timer is off |
| Game.BartenderGame.PauseTimer | bartenderGame.js:463-470 | the timer stops, the level is paused and stays started |
| Game.BartenderGame.Tick | bartenderGame.js:444-452 | the clock moves only while running, by one second; it times out exactly when it reaches the limit, recording one attempt; the limit, the glass and the stirs are kept, except that a retry resets them |
| Game.TwoTicksToTimeOut | bartenderGame.js:444-452 | with a two-second limit and a fresh clock, the first tick keeps the level running and the second times it out |
| Game.BartenderGame.TimeOut | bartenderGame.js:484-502 | the timer stops and exactly one attempt is recorded; a retry reloads the level, otherwise the level is left stopped |
| Game.BartenderGame.SyncCurrentLevelStats | bartenderGame.js:94-115 | the current level's entry exists and agrees with the completed list |
| Game.BartenderGame.RecordLevelCompletion | bartenderGame.js:171-212 | the entry records the win, the game-wide best is the running minimum, and the level is in the completed list exactly once (corrected rule of finding 1; as written: Progress.BestAsWritten, Progress.ZeroBestIsLost) |
| Game.BartenderGame.RecordLevelAttempt | bartenderGame.js:214-246 | one more attempt and the elapsed time; the best time and the completed flag are kept |
| Game.BartenderGame.UpdateOverallStats | game.js:423-475 | the panel's figures are those of the order-independent sum; counts and average are non-negative, and success is a percentage when the keys are levels |
| Game.BartenderGame.ResetLevelState | bartenderGame.js:340-361 | a fresh, stopped session on the current level with the recipe's time limit |
| Game.BartenderGame.Enter | bartenderGame.js:326-338 | the given level is loaded, fresh and stopped |
| Game.BartenderGame.ShowAllLevelsCompleted | bartenderGame.js:363-390 | back to level 1 with no completed levels; statistics are kept |
| Game.BartenderGame.LoadLevel | bartenderGame.js:326-338 | numbers below 1 load level 1; numbers past the last level end the game instead |
| Game.BartenderGame.NextLevel | bartenderGame.js:1207-1223 | nothing changes unless the current level is completed and not the last; then the level goes up by exactly one |
| Game.BartenderGame.PreviousLevel | bartenderGame.js:1043-1067 | nothing changes at level 1, or when the previous or the current level is not completed; otherwise the level goes down by exactly one |
| Game.BartenderGame.StartLevel | bartenderGame.js:1174-1205 | a completed level without the replay mark, or a running level, is refused with no change; otherwise an empty glass, a zero clock, the recipe's time limit, and running |
| Game.BartenderGame.CheckSolution | bartenderGame.js:727-759 | a verdict only while running with a non-empty glass; it passes exactly when `Judge` passes and the stirs suffice; a pass records the win, a failure records nothing |
| Game.BartenderGame.LevelCompleted | bartenderGame.js:807-842 | the session stops and the win is recorded; the level-record flag compares with the best held before the win (corrected rule of finding 2; as written: Progress.LevelRecordNeverAnnounced) |
| Game.BartenderGame.LevelFailed | bartenderGame.js:844-862 | nothing is recorded; a retry reloads the level, otherwise it keeps running |
| Game.BartenderGame.ResetCompletedLevelForReplay | bartenderGame.js:910-933 | a stopped, empty session on the same level, marked for replay |
| Game.BartenderGame.PressStart | bartenderGame.js:936-979 | idle starts, offers a replay, or offers a full restart after the game was finished; running pauses; paused resumes; except for the full restart, the level, the completed list and the game-wide best are kept |
| Game.BartenderGame.ShowCompletionOptions | bartenderGame.js:1241-1294 | offered only on the completed last level; a confirmed restart loads level 1 idle with an empty glass and no progress, a declined restart changes nothing, and dismissing marks the game finished |
| Game.BartenderGame.RestartGameCompletely | bartenderGame.js:1296-1323 | after confirmation, level 1 with no completed levels, fresh statistics and no best time |
| Game.BartenderGame.RestartGame | game.js:1613-1626 | level 1, no completed levels, fresh statistics, no game-wide best time |
| ReserveGame.ReserveGame.SaveGameState | reservgame.js:387-396 | the same save and the same round trip through start-up |
| ReserveGame.ReserveGame.constructor | reservgame.js:4-85 | the saved progress is read back, the level is clamped and loaded, and the invariant holds |
| ReserveGame.ReserveGame.ResetGlass | reservgame.js:1084-1094 | the glass is empty with no stirs |
| ReserveGame.ReserveGame.AddIngredientToGlass | reservgame.js:607-646 | a full glass is ignored silently, an upright alcohol is refused, otherwise exactly one pour is appended |
| ReserveGame.ReserveGame.DropIngredient | reservgame.js:591-604 | pours are accepted only while the timer runs |
| ReserveGame.ReserveGame.ToggleFlip | reservgame.js:514-520 | only while running, only an alcohol bottle turns over |
| ReserveGame.ReserveGame.StirGlass | reservgame.js:793-811 | an empty glass keeps its count; otherwise exactly one more stir |
| ReserveGame.ReserveGame.PressStir | reservgame.js:869-875 | the stir button is silently ignored unless the timer runs |
| ReserveGame.ReserveGame.PressReset | reservgame.js:842-853 | while running only a confirmed reset empties the glass; otherwise it is emptied at once |
| ReserveGame.ReserveGame.StartTimer | reservgame.js:432-438 | the level is running and started |
| ReserveGame.ReserveGame.StopTimer | reservgame.js:451-457 | the timer is off |
| ReserveGame.ReserveGame.Tick | reservgame.js:441-448 | the clock moves only while running; reaching the limit records exactly one failure and empties the glass |
| ReserveGame.ReserveGame.TimeOut | reservgame.js:469-476 | the timer stops, one failure is recorded, the glass is emptied and the level is no longer started |
| ReserveGame.ReserveGame.SyncCurrentLevelStats | reservgame.js:95-117 | the current level's entry exists and agrees with the completed list |
| ReserveGame.ReserveGame.RecordLevelCompletion | reservgame.js:175-221 | the win without a time total; the running minimum for the game-wide best; the level is listed once (corrected rule of finding 1; as written: Progress.BestAsWritten, Progress.ZeroBestIsLost) |
| ReserveGame.ReserveGame.RecordLevelFailure | reservgame.js:231-258 | one more attempt and the recomputed rate, nothing else |
| ReserveGame.ReserveGame.UpdateOverallStats | reservgame.js:119-173 | the figures of the best-time average rule over the order-independent sum, with their bounds |
| ReserveGame.ReserveGame.Enter | reservgame.js:311-353 | the given level is loaded, fresh and stopped, with the recipe's time limit |
| ReserveGame.ReserveGame.ShowAllLevelsCompleted | reservgame.js:374-377 | back to level 1 with no completed levels |
| ReserveGame.ReserveGame.LoadLevel | reservgame.js:311-316 | numbers below 1 load level 1; numbers past the last level reset to level 1 instead |
| ReserveGame.ReserveGame.NextLevel | reservgame.js:1069-1082 | nothing changes unless the current level is completed and not the last; then exactly one level up |
| ReserveGame.ReserveGame.StartLevel | reservgame.js:1028-1044 | any completed level and a running level are refused with no change; otherwise an empty glass, a zero clock, and running (corrected rule of finding 3; as written: ReserveGame.ReserveGame.StartLevelAsWritten) |
| ReserveGame.ReserveGame.StartLevelAsWritten | reservgame.js:1028-1044 | the same start, except that the clock keeps its elapsed time |
| ReserveGame.ReserveGame.CheckSolution | reservgame.js:671-700 | a verdict only while running with a non-empty glass; a pass needs `Judge` and the tolerant stir rule; a failure records one failed attempt and the level keeps running |
| ReserveGame.ReserveGame.LevelCompleted | reservgame.js:744-774 | the timer stops with the level still started (shown as "Level Completed"), and the win is recorded (corrected rules of findings 1 and 2; as written: Progress.ZeroBestIsLost, Progress.LevelRecordNeverAnnounced) |
| ReserveGame.ReserveGame.LevelFailed | reservgame.js:776-791 | one failed attempt is recorded; glass, clock and timer are left as they were |
| ReserveGame.ReserveGame.RestartGame | reservgame.js:1046-1055 | level 1, no completed levels, fresh statistics; the game-wide best time is kept |
| ReserveGame.TimedOutGame | reservgame.js:469-476 | a fresh game whose only level, with a two-second limit, was started and timed out, holds two elapsed seconds |
| ReserveGame.RetryAsWrittenExpiresAtOnce | reservgame.js:1028-1044 | retried with the clock as written, that level times out on its first tick |
| ReserveGame.RetryRestartedKeepsRunning | reservgame.js:1028-1044 | retried with the clock restarted, the first tick leaves it running |

## Left out

- Rendering is left out: DOM updates, button labels and colours, recipe lists, level badges, the detailed-statistics and final-statistics messages (`showDetailedStatistics`, the text built in `showAllLevelsCompleted`), and the `showSolution` hint.
- Ingredient layout and stirring animation are left out (`calculateIngredientPosition`, `mixIngredients`). They are random floating-point positions.
- `setInterval` and `setTimeout` are not modelled. The interval is the explicit `Tick` method, and the one-second delay before `showCompletionOptions` makes it a separate call.
- The `isStirring` animation lock is not modelled: each stir is atomic.
- Asynchronous interleavings while a dialog is open are not modelled. Each confirmation dialog is a boolean argument.
- Touch and drag gesture capture, `dragstart` wiring, and the modal manager are left out (modalManager.js, touchDragManager.js and their copies in game.js). The model starts at the drop handler. On touch screens the running check happens only when the touch starts (touchDragManager.js:130), and the touch end handlers add the ingredient without checking again (touchDragManager.js:205, 260); a level that stops during a touch drag is therefore not modelled.
- The flip state of a dropped bottle is read at drop time (`FlipOf(flipStates, kind)`), whereas the source reads it at `dragstart` and carries it to the drop through `dataTransfer` (bartenderGame.js:621 and 657, reservgame.js:565 and 599); a toggle during a drag is not modelled.
- `localStorage` persistence is left out. Saved progress is the constructor's `SavedGame` argument. `SaveGameState` computes what would be written, but the calls to it after each change are not modelled.
- Fetching the recipe catalog is left out. The catalog is a constructor argument, and `FallbackCocktails` is the built-in one.
- `Date` timestamps (`lastPlayed`, `lastUpdated`, `currentLevelStartTime`) and the stored `cocktailName` are left out. They carry no decisions.
- An empty catalog is excluded by the constructors' precondition. With no levels, `loadLevel` and `showAllLevelsCompleted` would call each other forever.
- The "no cocktail loaded" branch of `checkSolution` is not modelled. In the model the current recipe always exists once a game is constructed.
- Saved data that the game itself never writes is not modelled: negative counters, duplicate completed levels, rates outside [0, 100]. The constructors require `Game.WellFormedSave`.
- Numbers are exact integers and rationals. JavaScript's floating-point division inside `Math.round` is not modelled, and neither are non-integer times.
- `resetCompletedLevel` in game.js is not modelled. Nothing calls it.
- pwaManager.js, sw.js and main.js are not part of this model.
- The `updateOverallStats` early return when the panel's elements are missing is not modelled.
- Game.BartenderGame.UpdateOverallStats and ReserveGame.ReserveGame.UpdateOverallStats: the 0–100 bound on the success figure is stated only when every statistics key is a level of the catalog. Entries for other keys are counted by the source too, and they can push the figure past 100.
- Progress.AfterFailure requires a non-negative attempt count on an existing entry. Every entry the game writes has one.
- Game.BartenderGame.constructor and ReserveGame.ReserveGame.constructor keep a saved game-wide best time of 0, where `|| null` would drop it. This follows the corrected best-time rule of the first finding.
- The `|| 0` defaults for missing counters in stored entries are not modelled. Entries are complete records, with a missing time total read as 0.

## Findings

| source | as written | input that shows it | evidently intended | confidence | as-written member | corrected member |
|---|---|---|---|---|---|---|
| bartenderGame.js:190-199 | `!stats.bestTime \|\| t < stats.bestTime` (and the same for `overallBestTime`, and in game.js and reservgame.js) treats a best time of 0 as absent | best 0, new time 5: the best becomes 5 | the best time is a running minimum in which only a missing best counts as absent | high, not executed | Progress.ZeroBestIsLost | Progress.RunningBest |
| bartenderGame.js:811-823 | the "new level record" message compares the time with the level's best after `recordLevelCompletion` already lowered it to that time (the same holds at reservgame.js:744-766) | any completion, e.g. best 30, time 20: the stored best is 20 and `20 < 20` is false | compare with the best held before this completion | high, not executed | Progress.LevelRecordNeverAnnounced | Progress.LevelRecordMeansBestImproved |
| reservgame.js:1028-1044 | `startLevel` empties the glass and starts the timer but does not reset `timeElapsed`, which `timeOut` leaves at the limit | level with a 2-second limit, timed out, started again: the first tick times it out | the clock restarts at 0, as `startLevel` in bartenderGame.js:1196 does | high, not executed | ReserveGame.RetryAsWrittenExpiresAtOnce | ReserveGame.RetryRestartedKeepsRunning |

=== FILE: clock.dfy ===
/** Times as the game shows them: whole minutes, a colon, and two-digit seconds. */
module Clock {
  import opened Cocktails

  predicate IsDigit(c: char) {
    '0' <= c <= '9'
  }

  function DigitChar(d: nat): (c: char)
    requires d < 10
    ensures IsDigit(c) && c as int - '0' as int == d
  {
    ('0' as int + d) as char
  }

  /** The decimal numeral of `n`, without leading zeros. */
  function Digits(n: nat): (s: string)
    ensures |s| >= 1 && AllDigits(s)
    ensures n >= 10 ==> s[0] != '0'
  {
    if n < 10 then [DigitChar(n)] else Digits(n / 10) + [DigitChar(n % 10)]
  }

  /** The value of a string of decimal digits. */
  function DigitsValue(s: string): nat
    requires AllDigits(s)
  {
    if s == [] then 0
    else
      assert IsDigit(s[|s| - 1]);
      DigitsValue(s[..|s| - 1]) * 10 + (s[|s| - 1] as int - '0' as int)
  }

  lemma {:induction false} DigitsValueOfDigits(n: nat)
    ensures DigitsValue(Digits(n)) == n
  {
    if n >= 10 {
      DigitsValueOfDigits(n / 10);
      var s := Digits(n);
      assert s[..|s| - 1] == Digits(n / 10);
    }
  }

  /** `String(n).padStart(2, "0")` for n < 100. */
  function Pad2(n: nat): (s: string)
    requires n < 100
    ensures |s| == 2 && AllDigits(s)
    ensures DigitsValue(s) == n
  {
    var s := if n < 10 then ['0', DigitChar(n)] else Digits(n);
    DigitsValueOfDigits(n);
    assert s[..1][..0] == [];
    s
  }

  /** formatTime: minutes, a colon, seconds padded to two digits. */
  function FormatTime(seconds: nat): (s: string)
    ensures |s| >= 4 && s[|s| - 3] == ':'
  {
    Digits(seconds / 60) + ":" + Pad2(seconds % 60)
  }

  /** Position of the first colon, if any. */
  function ColonAt(s: string): (r: Option<nat>)
    ensures r.Some? ==> r.value < |s| && s[r.value] == ':' && ':' !in s[..r.value]
    ensures r.None? ==> ':' !in s
  {
    if s == [] then None
    else if s[0] == ':' then Some(0)
    else
      var r := ColonAt(s[1..]);
      if r.None? then None
      else
        assert s[..r.value + 1] == [s[0]] + s[1..][..r.value];
        Some(r.value + 1)
  }

  predicate AllDigits(s: string) {
    forall i :: 0 <= i < |s| ==> IsDigit(s[i])
  }

  /** Reads back a displayed time: digits, a colon, two digits below 60. */
  function ParseTime(s: string): Option<nat>
  {
    match ColonAt(s)
    case None => None
    case Some(i) =>
      var minutes, secs := s[..i], s[i + 1..];
      if minutes != [] && AllDigits(minutes) && |secs| == 2 && AllDigits(secs) && DigitsValue(secs) < 60
      then Some(DigitsValue(minutes) * 60 + DigitsValue(secs))
      else None
  }

  /** Reading back a formatted time gives the time. */
  lemma FormatTimeRoundTrip(seconds: nat)
    ensures ParseTime(FormatTime(seconds)) == Some(seconds)
  {
    var m, sec := Digits(seconds / 60), Pad2(seconds % 60);
    var s := FormatTime(seconds);
    assert s == m + [':'] + sec;
    assert ':' !in m;
    assert ColonAt(s) == Some(|m|) by { ColonAfterDigits(m, sec); }
    assert s[..|m|] == m;
    assert s[|m| + 1..] == sec;
    DigitsValueOfDigits(seconds / 60);
  }

  lemma {:induction false} ColonAfterDigits(m: string, rest: string)
    requires AllDigits(m)
    ensures ColonAt(m + [':'] + rest) == Some(|m|)
  {
    if m != [] {
      ColonAfterDigits(m[1..], rest);
      assert (m + [':'] + rest)[1..] == m[1..] + [':'] + rest;
    }
  }

  /** Distinct times are displayed differently. */
  lemma FormatTimeInjective(a: nat, b: nat)
    requires FormatTime(a) == FormatTime(b)
    ensures a == b
  {
    FormatTimeRoundTrip(a);
    FormatTimeRoundTrip(b);
  }
}

=== FILE: cocktails.dfy ===
/** Value types shared by every copy of the game: what is poured, what a recipe asks for,
    the recipe catalog, and the notices the game shows the player. */
module Cocktails {

  datatype Option<+T> = None | Some(value: T)

  /** One entry of the glass: the ingredient's type tag and whether its bottle was
      upside down when it was poured. */
  datatype Poured = Poured(kind: string, wasFlipped: bool)

  /** One line of a recipe: at least `quantity` pours of `kind`. */
  datatype Requirement = Requirement(kind: string, quantity: int)

  /** A recipe. `timeLimit` and `requiredStirs` may be missing from the catalog. */
  datatype Cocktail = Cocktail(
    id: int,
    name: string,
    timeLimit: Option<int>,
    ingredients: seq<Requirement>,
    requiredStirs: Option<int>)

  /** What an operation reports back to the player (a message, or a silent return). */
  datatype Notice =
    | Done
    | Ignored
    | NotStarted
    | NotRunning
    | GlassFull
    | FlipRequired
    | GlassEmpty
    | AlreadyCompleted
    | InProgress
    | AtFirstLevel
    | PreviousNotCompleted
    | CurrentNotCompleted
    | AllLevelsCompleted

  /** The glass holds at most this many pours. */
  const MaxIngredients: nat := 8

  /** Types whose bottle must be flipped before pouring (soda included, as in the game). */
  const AlcoholTypes: seq<string> :=
    ["rum", "tequila", "whiskey", "vodka", "gin", "vermouth", "soda", "bitters"]

  predicate IsAlcohol(kind: string) {
    kind in AlcoholTypes
  }

  /** A pour is acceptable unless it is an alcohol type poured from an upright bottle. */
  predicate FlipHonoured(p: Poured) {
    IsAlcohol(p.kind) ==> p.wasFlipped
  }

  /** `requiredStirs || 3`: a missing or zero count falls back to 3. */
  function StirsRequired(c: Cocktail): (n: int)
    ensures n != 0
    ensures c.requiredStirs.Some? && c.requiredStirs.value != 0 ==> n == c.requiredStirs.value
    ensures c.requiredStirs.None? || c.requiredStirs == Some(0) ==> n == 3
  {
    match c.requiredStirs
    case Some(k) => if k != 0 then k else 3
    case None => 3
  }

  /** `timeLimit || 60`: a missing or zero limit falls back to 60 seconds. */
  function TimeLimit(c: Cocktail): (n: int)
    ensures n != 0
    ensures c.timeLimit.Some? && c.timeLimit.value != 0 ==> n == c.timeLimit.value
    ensures c.timeLimit.None? || c.timeLimit == Some(0) ==> n == 60
  {
    match c.timeLimit
    case Some(k) => if k != 0 then k else 60
    case None => 60
  }

  /** The built-in catalog used when the recipe file cannot be fetched. */
  const FallbackCocktails: seq<Cocktail> := [
    Cocktail(1, "Mojito", Some(60),
      [Requirement("mint", 1), Requirement("lime", 1), Requirement("sugar", 1),
       Requirement("rum", 1), Requirement("soda", 1), Requirement("ice", 1)],
      Some(3)),
    Cocktail(2, "Margarita", Some(50),
      [Requirement("tequila", 1), Requirement("triple_sec", 1),
       Requirement("lime_juice", 1), Requirement("salt", 1)],
      Some(2)),
    Cocktail(3, "Old Fashioned", Some(45),
      [Requirement("whiskey", 1), Requirement("sugar", 1),
       Requirement("bitters", 1), Requirement("orange", 1)],
      Some(1))
  ]

  /** `flipStates[type] || false`. */
  function FlipOf(flips: map<string, bool>, kind: string): (upsideDown: bool)
    ensures kind !in flips ==> !upsideDown
    ensures kind in flips ==> upsideDown == flips[kind]
  {
    if kind in flips then flips[kind] else false
  }

  /** No level number occurs twice. */
  predicate NoDuplicates(s: seq<int>) {
    forall i, j :: 0 <= i < j < |s| ==> s[i] != s[j]
  }

  /** `list.includes(x) ? list : list.push(x)`. */
  function AddOnce(s: seq<int>, x: int): (r: seq<int>)
    ensures x in r
    ensures forall y :: y in r <==> y in s || y == x
    ensures NoDuplicates(s) ==> NoDuplicates(r)
    ensures x in s ==> r == s
    ensures |r| <= |s| + 1
  {
    if x in s then s else s + [x]
  }
}

=== FILE: game.dfy ===
/** The shipped game object (bartenderGame.js, and its copy game.js): the glass, the level
    session and the progress store, changed in place by the player's actions and by the
    one-second timer. */
module Game {
  import opened Cocktails
  import opened Validator
  import opened Progress

  /** The session as the start button sees it. */
  datatype Phase = Idle | Running | Paused

  /** The outcome of pressing "check". */
  datatype Submission =
    | Rejected(notice: Notice)
    | Completed(time: int, levelRecord: bool, gameRecord: bool)
    | Failed(ingredients: IngredientVerdict, stirsOk: bool)

  /** Saved progress as the game itself writes it. */
  predicate WellFormedSave(saved: SavedGame) {
    NoDuplicates(saved.completedLevels) && AllWellFormed(saved.levelStats)
  }

  /** `savedData.currentLevel || 1`, then lowered to the last level, then raised to 1. */
  function InitialLevel(saved: SavedGame, totalLevels: nat): (level: int)
    requires totalLevels >= 1
    ensures 1 <= level <= totalLevels
    ensures saved.currentLevel.Some? && 1 <= saved.currentLevel.value <= totalLevels ==>
            level == saved.currentLevel.value
    ensures saved.currentLevel.None? ==> level == 1
    ensures saved.currentLevel.Some? && saved.currentLevel.value > totalLevels ==> level == totalLevels
    ensures saved.currentLevel.Some? && saved.currentLevel.value < 1 ==> level == 1
  {
    var l := if saved.currentLevel.None? || saved.currentLevel.value == 0 then 1 else saved.currentLevel.value;
    var l' := if l > totalLevels then totalLevels else l;
    if l' < 1 then 1 else l'
  }

  class BartenderGame {
    /** The recipe catalog; level n plays `cocktails[n - 1]`. */
    const cocktails: seq<Cocktail>

    var addedIngredients: seq<Poured>
    var stirCount: nat
    var levelTime: int
    var timeElapsed: nat
    var isTimerRunning: bool
    var levelStarted: bool
    var isGamePaused: bool
    var isLevelResetForReplay: bool
    var isGameCompleted: bool
    var flipStates: map<string, bool>
    var completedLevels: seq<int>
    var currentLevel: int
    var levelStats: map<int, LevelStats>
    var overallBestTime: Option<int>

    /** Navigation never leaves [1, totalLevels]. */
    ghost predicate Catalogued()
      reads this`currentLevel
    {
      |cocktails| >= 1 && 1 <= currentLevel <= |cocktails|
    }

    /** At most 8 pours, and no alcohol poured from an upright bottle. */
    ghost predicate GlassValid()
      reads this`addedIngredients
    {
      && |addedIngredients| <= MaxIngredients
      && forall i :: 0 <= i < |addedIngredients| ==> FlipHonoured(addedIngredients[i])
    }

    ghost predicate ProgressValid()
      reads this`completedLevels, this`levelStats
    {
      NoDuplicates(completedLevels) && AllWellFormed(levelStats)
    }

    /** The current level has an entry, and its completed flag matches the level list. */
    ghost predicate CurrentSynced()
      reads this`currentLevel, this`levelStats, this`completedLevels
    {
      currentLevel in levelStats && levelStats[currentLevel].completed == (currentLevel in completedLevels)
    }

    /** Running = started with the timer on; paused = started with the timer off;
        otherwise not started. */
    ghost predicate SessionValid()
      reads this`isTimerRunning, this`levelStarted, this`isGamePaused
    {
      && (isTimerRunning ==> levelStarted && !isGamePaused)
      && (isGamePaused ==> levelStarted && !isTimerRunning)
      && (levelStarted ==> isTimerRunning || isGamePaused)
    }

    ghost predicate Valid()
      reads this
    {
      Catalogued() && GlassValid() && ProgressValid() && CurrentSynced() && SessionValid()
    }

    function Phase(): Phase
      reads this`isTimerRunning, this`isGamePaused
    {
      if isTimerRunning then Running else if isGamePaused then Paused else Idle
    }

    function CurrentCocktail(): Cocktail
      reads this`currentLevel
      requires Catalogued()
    {
      cocktails[currentLevel - 1]
    }

    function CurrentEntry(): LevelStats
      reads this`currentLevel, this`levelStats, this`completedLevels
      requires CurrentSynced()
    {
      levelStats[currentLevel]
    }

    /** saveGameState: the level, the completed list, the stats map and the overall best
        (the timestamp is left out). Reading such a save back at start-up resumes the same
        level with the same progress. */
    function SaveGameState(): (saved: SavedGame)
      reads this`currentLevel, this`completedLevels, this`levelStats, this`overallBestTime
      requires Catalogued() && ProgressValid() && CurrentSynced()
      ensures WellFormedSave(saved)
      ensures InitialLevel(saved, |cocktails|) == currentLevel
      ensures saved.completedLevels == completedLevels && saved.overallBestTime == overallBestTime
      ensures saved.levelStats[currentLevel :=
                Synced(EntryOf(saved.levelStats, currentLevel), currentLevel in saved.completedLevels)]
              == levelStats
    {
      SyncedAgreeing(levelStats[currentLevel]);
      SavedGame(Some(currentLevel), completedLevels, levelStats, overallBestTime)
    }

    /** Start-up: saved progress is read back, the level is clamped to the catalog and
        loaded. */
    constructor (catalog: seq<Cocktail>, saved: SavedGame)
      requires |catalog| >= 1 && WellFormedSave(saved)
      ensures Valid() && Phase() == Idle
      ensures cocktails == catalog
      ensures currentLevel == InitialLevel(saved, |catalog|)
      ensures completedLevels == saved.completedLevels
      ensures levelStats == saved.levelStats[currentLevel :=
                Synced(EntryOf(saved.levelStats, currentLevel), currentLevel in saved.completedLevels)]
      ensures overallBestTime == saved.overallBestTime
      ensures addedIngredients == [] && stirCount == 0 && timeElapsed == 0 && flipStates == map[]
      ensures levelTime == TimeLimit(CurrentCocktail())
      ensures !isLevelResetForReplay && !isGameCompleted
    {
      cocktails := catalog;
      addedIngredients := [];
      stirCount := 0;
      levelTime := 0;
      timeElapsed := 0;
      isTimerRunning := false;
      levelStarted := false;
      isGamePaused := false;
      isLevelResetForReplay := false;
      isGameCompleted := false;
      flipStates := map[];
      completedLevels := saved.completedLevels;
      currentLevel := InitialLevel(saved, |catalog|);
      levelStats := saved.levelStats;
      overallBestTime := saved.overallBestTime;
      new;
      ResetLevelState();
    }

    // ----- the glass -----

    /** resetGlass: the glass is emptied and the stir count cleared, whatever they held
        (so doing it twice is doing it once). */
    method ResetGlass()
      modifies this`addedIngredients, this`stirCount
      ensures addedIngredients == [] && stirCount == 0
    {
      addedIngredients := [];
      stirCount := 0;
    }

    /** addIngredientToGlass: a full glass and an unflipped alcohol are refused; anything
        else is appended as one new pour. */
    method AddIngredientToGlass(kind: string, isFlipped: bool) returns (notice: Notice)
      requires GlassValid()
      modifies this`addedIngredients
      ensures GlassValid()
      ensures old(|addedIngredients|) >= MaxIngredients ==> notice == GlassFull
      ensures old(|addedIngredients|) < MaxIngredients && IsAlcohol(kind) && !isFlipped ==> notice == FlipRequired
      ensures notice == Done <==> old(|addedIngredients|) < MaxIngredients && (IsAlcohol(kind) ==> isFlipped)
      ensures notice == Done ==> addedIngredients == old(addedIngredients) + [Poured(kind, isFlipped)]
      ensures notice != Done ==> addedIngredients == old(addedIngredients)
    {
      if |addedIngredients| >= MaxIngredients {
        return GlassFull;
      }
      if IsAlcohol(kind) && !isFlipped {
        return FlipRequired;
      }
      addedIngredients := addedIngredients + [Poured(kind, isFlipped)];
      notice := Done;
    }

    /** The glass's drop handler: only while the level runs, and the bottle's flip state is
        the one the player set. */
    method DropIngredient(kind: string) returns (notice: Notice)
      requires Valid()
      modifies this`addedIngredients
      ensures Valid()
      ensures Phase() != Running || kind == [] ==> notice == Ignored
      ensures notice == Done <==>
                Phase() == Running && kind != [] && old(|addedIngredients|) < MaxIngredients
                && (IsAlcohol(kind) ==> FlipOf(flipStates, kind))
      ensures notice == Done ==> addedIngredients == old(addedIngredients) + [Poured(kind, FlipOf(flipStates, kind))]
      ensures notice != Done ==> addedIngredients == old(addedIngredients)
    {
      if !levelStarted || !isTimerRunning || kind == [] {
        return Ignored;
      }
      notice := AddIngredientToGlass(kind, FlipOf(flipStates, kind));
    }

    /** toggleFlip: while the level runs, an alcohol bottle turns over; nothing else moves. */
    method ToggleFlip(kind: string)
      modifies this`flipStates
      ensures Phase() == Running && levelStarted && IsAlcohol(kind) ==>
                FlipOf(flipStates, kind) == !FlipOf(old(flipStates), kind)
      ensures !(Phase() == Running && levelStarted && IsAlcohol(kind)) ==> flipStates == old(flipStates)
      ensures forall k :: k != kind ==> FlipOf(flipStates, k) == FlipOf(old(flipStates), k)
    {
      if !levelStarted || !isTimerRunning {
        return;
      }
      if !IsAlcohol(kind) {
        return;
      }
      flipStates := flipStates[kind := !FlipOf(flipStates, kind)];
    }

    /** stirGlass: an empty glass is refused; otherwise exactly one more stir. */
    method StirGlass() returns (notice: Notice)
      modifies this`stirCount
      ensures addedIngredients == [] ==> notice == GlassEmpty && stirCount == old(stirCount)
      ensures addedIngredients != [] ==> notice == Done && stirCount == old(stirCount) + 1
    {
      if |addedIngredients| == 0 {
        return GlassEmpty;
      }
      stirCount := stirCount + 1;
      notice := Done;
    }

    /** The stir button: only while the level runs. */
    method PressStir() returns (notice: Notice)
      modifies this`stirCount
      ensures Phase() != Running || !levelStarted ==> notice == NotStarted && stirCount == old(stirCount)
      ensures notice == Done <==> Phase() == Running && levelStarted && addedIngredients != []
      ensures stirCount == old(stirCount) + (if notice == Done then 1 else 0)
    {
      if !levelStarted || !isTimerRunning {
        return NotStarted;
      }
      notice := StirGlass();
    }

    /** The reset button: asks first, in every phase; only a confirmed reset empties the
        glass. */
    method PressReset(confirm: bool)
      modifies this`addedIngredients, this`stirCount
      ensures confirm ==> addedIngredients == [] && stirCount == 0
      ensures !confirm ==> addedIngredients == old(addedIngredients) && stirCount == old(stirCount)
    {
      if confirm {
        ResetGlass();
      }
    }

    // ----- the timer -----

    /** startTimer: no effect while already running; otherwise the level runs. */
    method StartTimer()
      requires Valid()
      modifies this`isTimerRunning, this`levelStarted, this`isGamePaused
      ensures Valid() && Phase() == Running
      ensures old(isTimerRunning) ==> levelStarted == old(levelStarted) && isGamePaused == old(isGamePaused)
    {
      if isTimerRunning {
        return;
      }
      isTimerRunning := true;
      levelStarted := true;
      isGamePaused := false;
    }

    /** stopTimer: the timer is off; the other flags are left for the caller to settle. */
    method StopTimer()
      modifies this`isTimerRunning
      ensures !isTimerRunning
    {
      isTimerRunning := false;
    }

    /** pauseTimer: the timer stops and the level is paused but stays started. */
    method PauseTimer()
      requires Valid() && levelStarted
      modifies this`isTimerRunning, this`isGamePaused
      ensures Valid() && Phase() == Paused && levelStarted
    {
      isTimerRunning := false;
      isGamePaused := true;
    }

    /** One second of the interval: while running the clock advances by one, and reaching
        the limit times the level out; otherwise nothing happens. */
    method Tick(retry: bool) returns (timedOut: bool)
      requires Valid()
      modifies this
      ensures Valid()
      ensures timedOut <==> old(Phase()) == Running && old(timeElapsed) + 1 >= old(levelTime)
      ensures old(Phase()) != Running ==> unchanged(this)
      ensures old(Phase()) == Running && !timedOut ==>
                && timeElapsed == old(timeElapsed) + 1
                && Phase() == Running
                && unchanged(this`addedIngredients, this`stirCount, this`levelStats, this`flipStates, this`levelTime)
      ensures timedOut ==>
                && Phase() == Idle
                && levelStats == old(levelStats)[currentLevel := AfterAttempt(Some(old(CurrentEntry())), old(timeElapsed) + 1)]
                && (retry ==> addedIngredients == [] && stirCount == 0 && timeElapsed == 0 && flipStates == map[]
                              && levelTime == TimeLimit(CurrentCocktail()))
                && (!retry ==> timeElapsed == old(timeElapsed) + 1
                               && unchanged(this`addedIngredients, this`stirCount, this`flipStates, this`levelTime))
      ensures Progressed(old(levelStats), levelStats)
      ensures unchanged(this`currentLevel, this`completedLevels, this`overallBestTime,
                        this`isLevelResetForReplay, this`isGameCompleted)
    {
      timedOut := false;
      if !isTimerRunning {
        return;
      }
      timeElapsed := timeElapsed + 1;
      UpdatesProgress(levelStats, currentLevel, timeElapsed, true);
      if timeElapsed >= levelTime {
        timedOut := true;
        TimeOut(retry);
      }
    }

    /** timeOut: the timer stops and one failed attempt is recorded; the player either
        retries (the level is reset) or leaves the level stopped. */
    method TimeOut(retry: bool)
      requires Valid()
      modifies this
      ensures Valid() && Phase() == Idle
      ensures levelStats == old(levelStats)[currentLevel := AfterAttempt(Some(old(CurrentEntry())), old(timeElapsed))]
      ensures retry ==> addedIngredients == [] && stirCount == 0 && timeElapsed == 0 && flipStates == map[]
                        && levelTime == TimeLimit(CurrentCocktail())
      ensures !retry ==> unchanged(this`addedIngredients, this`stirCount, this`timeElapsed, this`flipStates, this`levelTime)
      ensures unchanged(this`currentLevel, this`completedLevels, this`overallBestTime,
                        this`isLevelResetForReplay, this`isGameCompleted)
    {
      StopTimer();
      RecordLevelAttempt();
      if retry {
        var entry := levelStats[currentLevel];
        ResetLevelState();
        SyncedAgreeing(entry);
      } else {
        levelStarted := false;
        isTimerRunning := false;
        isGamePaused := false;
      }
    }

    // ----- the progress store -----

    /** updateCurrentLevelStats: the current level's entry exists and agrees with the list
        of completed levels. */
    method SyncCurrentLevelStats()
      requires Catalogued() && ProgressValid()
      modifies this`levelStats
      ensures Catalogued() && ProgressValid() && CurrentSynced()
      ensures levelStats == old(levelStats)[currentLevel :=
                Synced(EntryOf(old(levelStats), currentLevel), currentLevel in completedLevels)]
    {
      var entry := if currentLevel in levelStats then Some(levelStats[currentLevel]) else None;
      levelStats := levelStats[currentLevel := Synced(entry, currentLevel in completedLevels)];
    }

    /** recordLevelCompletion: the level's entry records the win, the game-wide best time
        follows the minimum, and the level joins the completed list exactly once. */
    method RecordLevelCompletion(t: nat) returns (gameRecord: bool)
      requires Catalogued() && ProgressValid() && CurrentSynced()
      modifies this`levelStats, this`overallBestTime, this`completedLevels
      ensures Catalogued() && ProgressValid() && CurrentSynced()
      ensures levelStats == old(levelStats)[currentLevel := AfterCompletion(Some(old(CurrentEntry())), t)]
      ensures overallBestTime == RunningBest(old(overallBestTime), t)
      ensures gameRecord <==> old(overallBestTime).None? || t < old(overallBestTime).value
      ensures completedLevels == AddOnce(old(completedLevels), currentLevel)
    {
      var after := AfterCompletion(Some(levelStats[currentLevel]), t);
      levelStats := levelStats[currentLevel := after];
      gameRecord := overallBestTime.None? || t < overallBestTime.value;
      if gameRecord {
        overallBestTime := Some(t);
      }
      completedLevels := AddOnce(completedLevels, currentLevel);
      UpdatesKeepWellFormed(Some(old(levelStats)[currentLevel]), t, true);
      SyncCurrentLevelStats();
      SyncedAgreeing(after);
    }

    /** recordLevelAttempt: one more attempt and the elapsed time, nothing else. */
    method RecordLevelAttempt()
      requires Catalogued() && ProgressValid() && CurrentSynced()
      modifies this`levelStats
      ensures Catalogued() && ProgressValid() && CurrentSynced()
      ensures levelStats == old(levelStats)[currentLevel := AfterAttempt(Some(old(CurrentEntry())), timeElapsed)]
    {
      var after := AfterAttempt(Some(levelStats[currentLevel]), timeElapsed);
      UpdatesKeepWellFormed(Some(levelStats[currentLevel]), timeElapsed, true);
      levelStats := levelStats[currentLevel := after];
      SyncCurrentLevelStats();
      SyncedAgreeing(after);
    }

    /** updateOverallStats: the statistics panel's three figures. */
    method UpdateOverallStats() returns (o: Overview)
      requires ProgressValid()
      ensures o == OverviewOf(TallyOf(levelStats), |cocktails|)
      ensures o.gamesPlayed >= 0
      ensures o.averageTime.Some? ==> o.averageTime.value >= 0
      ensures (forall k :: k in levelStats ==> 1 <= k <= |cocktails|) ==> 0 <= o.successPercent <= 100
    {
      var t := SumStats(levelStats);
      o := OverviewOf(t, |cocktails|);
      TallyBounds(levelStats);
      AverageTimeNonNegative(levelStats, |cocktails|);
      if forall k :: k in levelStats ==> 1 <= k <= |cocktails| {
        KeysInRange(levelStats, |cocktails|);
        SuccessPercentBounds(t, |cocktails|);
      }
    }

    // ----- loading levels -----

    /** resetLevelState: a fresh, stopped session on the current level. */
    method ResetLevelState()
      requires Catalogued() && ProgressValid()
      modifies this`addedIngredients, this`stirCount, this`isGamePaused, this`flipStates,
               this`isTimerRunning, this`timeElapsed, this`levelStarted, this`levelTime, this`levelStats
      ensures Valid() && Phase() == Idle
      ensures addedIngredients == [] && stirCount == 0 && timeElapsed == 0 && flipStates == map[]
      ensures levelTime == TimeLimit(CurrentCocktail())
      ensures levelStats == old(levelStats)[currentLevel :=
                Synced(EntryOf(old(levelStats), currentLevel), currentLevel in completedLevels)]
    {
      ResetGlass();
      isGamePaused := false;
      flipStates := map[];
      StopTimer();
      timeElapsed := 0;
      levelStarted := false;
      levelTime := TimeLimit(CurrentCocktail());
      SyncCurrentLevelStats();
    }

    /** Loads an existing level. */
    method Enter(level: int)
      requires |cocktails| >= 1 && 1 <= level <= |cocktails| && ProgressValid()
      modifies this`currentLevel, this`addedIngredients, this`stirCount, this`isGamePaused, this`flipStates,
               this`isTimerRunning, this`timeElapsed, this`levelStarted, this`levelTime, this`levelStats
      ensures Valid() && Phase() == Idle && currentLevel == level
      ensures addedIngredients == [] && stirCount == 0 && timeElapsed == 0 && flipStates == map[]
      ensures levelTime == TimeLimit(CurrentCocktail())
      ensures levelStats == old(levelStats)[level := Synced(EntryOf(old(levelStats), level), level in completedLevels)]
    {
      currentLevel := level;
      ResetLevelState();
    }

    /** showAllLevelsCompleted: back to level 1 with an empty completed list; statistics
        are kept. */
    method ShowAllLevelsCompleted()
      requires |cocktails| >= 1 && AllWellFormed(levelStats)
      modifies this`currentLevel, this`completedLevels, this`addedIngredients, this`stirCount,
               this`isGamePaused, this`flipStates, this`isTimerRunning, this`timeElapsed,
               this`levelStarted, this`levelTime, this`levelStats
      ensures Valid() && Phase() == Idle && currentLevel == 1 && completedLevels == []
      ensures levelTime == TimeLimit(CurrentCocktail())
      ensures addedIngredients == [] && stirCount == 0 && timeElapsed == 0 && flipStates == map[]
      ensures levelStats == old(levelStats)[1 := Synced(EntryOf(old(levelStats), 1), false)]
    {
      completedLevels := [];
      Enter(1);
    }

    /** loadLevel: numbers below 1 mean level 1; numbers past the last level end the game
        instead of loading anything. */
    method LoadLevel(n: int)
      requires |cocktails| >= 1 && ProgressValid()
      modifies this`currentLevel, this`completedLevels, this`addedIngredients, this`stirCount,
               this`isGamePaused, this`flipStates, this`isTimerRunning, this`timeElapsed,
               this`levelStarted, this`levelTime, this`levelStats
      ensures Valid() && Phase() == Idle
      ensures addedIngredients == [] && stirCount == 0 && timeElapsed == 0 && flipStates == map[]
      ensures n <= |cocktails| ==> currentLevel == (if n < 1 then 1 else n) && completedLevels == old(completedLevels)
      ensures n > |cocktails| ==> currentLevel == 1 && completedLevels == []
      ensures levelTime == TimeLimit(CurrentCocktail())
      ensures levelStats == old(levelStats)[currentLevel :=
                Synced(EntryOf(old(levelStats), currentLevel), currentLevel in completedLevels)]
    {
      var level := if n < 1 then 1 else n;
      if level > |cocktails| {
        ShowAllLevelsCompleted();
        return;
      }
      Enter(level);
    }

    /** nextLevel: only from a completed level that is not the last one, and then exactly
        one level up. */
    method NextLevel() returns (notice: Notice)
      requires Valid()
      modifies this
      ensures Valid()
      ensures notice == Done <==> old(currentLevel) in completedLevels && old(currentLevel) < |cocktails|
      ensures old(currentLevel) !in old(completedLevels) ==> notice == CurrentNotCompleted
      ensures notice != Done ==> unchanged(this)
      ensures notice == Done ==>
                && currentLevel == old(currentLevel) + 1
                && Phase() == Idle && addedIngredients == [] && timeElapsed == 0
                && Progressed(old(levelStats), levelStats)
      ensures unchanged(this`completedLevels, this`overallBestTime, this`isLevelResetForReplay, this`isGameCompleted)
    {
      if currentLevel !in completedLevels {
        return CurrentNotCompleted;
      }
      if currentLevel >= |cocktails| {
        return AllLevelsCompleted;
      }
      UpdatesProgress(levelStats, currentLevel + 1, 0, currentLevel + 1 in completedLevels);
      LoadLevel(currentLevel + 1);
      notice := Done;
    }

    /** previousLevel: only from a completed level above the first whose predecessor is
        completed too, and then exactly one level down. */
    method PreviousLevel() returns (notice: Notice)
      requires Valid()
      modifies this
      ensures Valid()
      ensures old(currentLevel) <= 1 ==> notice == AtFirstLevel
      ensures old(currentLevel) > 1 && old(currentLevel) - 1 !in completedLevels ==> notice == PreviousNotCompleted
      ensures old(currentLevel) > 1 && old(currentLevel) - 1 in completedLevels && old(currentLevel) !in completedLevels
              ==> notice == CurrentNotCompleted
      ensures notice == Done <==>
                old(currentLevel) > 1 && old(currentLevel) - 1 in completedLevels && old(currentLevel) in completedLevels
      ensures notice != Done ==> unchanged(this)
      ensures notice == Done ==>
                && currentLevel == old(currentLevel) - 1
                && Phase() == Idle && addedIngredients == [] && timeElapsed == 0
                && Progressed(old(levelStats), levelStats)
      ensures unchanged(this`completedLevels, this`overallBestTime, this`isLevelResetForReplay, this`isGameCompleted)
    {
      if currentLevel <= 1 {
        return AtFirstLevel;
      }
      if currentLevel - 1 !in completedLevels {
        return PreviousNotCompleted;
      }
      if currentLevel !in completedLevels {
        return CurrentNotCompleted;
      }
      UpdatesProgress(levelStats, currentLevel - 1, 0, currentLevel - 1 in completedLevels);
      LoadLevel(currentLevel - 1);
      notice := Done;
    }

    // ----- starting, checking, replaying -----

    /** startLevel: a completed level starts only after it was reset for replay, and a
        running level does not restart; otherwise the glass is emptied, the clock set to
        zero against the recipe's time limit, and the timer started. */
    method StartLevel() returns (notice: Notice)
      requires Valid()
      modifies this
      ensures Valid()
      ensures notice == AlreadyCompleted <==> old(currentLevel in completedLevels) && !old(isLevelResetForReplay)
      ensures notice == InProgress <==> old(currentLevel !in completedLevels) && old(Phase()) == Running
      ensures notice != Done ==> notice == AlreadyCompleted || notice == InProgress
      ensures notice != Done ==> unchanged(this)
      ensures notice == Done ==>
                && Phase() == Running
                && addedIngredients == [] && stirCount == 0 && timeElapsed == 0
                && levelTime == TimeLimit(CurrentCocktail())
      ensures notice == Done && old(currentLevel in completedLevels) ==> !isLevelResetForReplay && flipStates == map[]
      ensures notice == Done && old(currentLevel !in completedLevels) ==>
                isLevelResetForReplay == old(isLevelResetForReplay) && flipStates == old(flipStates)
      ensures levelStats == old(levelStats)
      ensures unchanged(this`currentLevel, this`completedLevels, this`overallBestTime, this`isGameCompleted)
    {
      if currentLevel in completedLevels && isLevelResetForReplay {
        var entry := levelStats[currentLevel];
        ResetLevelState();
        SyncedAgreeing(entry);
        isLevelResetForReplay := false;
      } else if currentLevel in completedLevels {
        return AlreadyCompleted;
      } else if levelStarted && isTimerRunning {
        return InProgress;
      }
      ResetGlass();
      timeElapsed := 0;
      levelTime := TimeLimit(CurrentCocktail());
      StartTimer();
      notice := Done;
    }

    /** checkSolution: a verdict only for a running level with something in the glass.
        A correct glass completes the level; a wrong one records nothing and, if the player
        retries, resets the level. */
    method CheckSolution(retry: bool) returns (result: Submission)
      requires Valid()
      modifies this
      ensures Valid()
      ensures old(Phase()) == Idle ==> result == Rejected(NotStarted)
      ensures old(Phase()) == Paused ==> result == Rejected(NotRunning)
      ensures old(Phase()) == Running && old(addedIngredients) == [] ==> result == Rejected(GlassEmpty)
      ensures result.Rejected? ==> unchanged(this)
      ensures !result.Rejected? ==>
                && old(Phase()) == Running && old(addedIngredients) != []
                && (result.Completed? <==>
                      Judge(CurrentCocktail().ingredients, old(addedIngredients)) == AllPresent
                      && CheckStirs(old(stirCount), CurrentCocktail()))
      ensures result.Completed? ==>
                && result.time == old(timeElapsed)
                && Phase() == Idle
                && levelStats == old(levelStats)[currentLevel := AfterCompletion(Some(old(CurrentEntry())), old(timeElapsed))]
                && completedLevels == AddOnce(old(completedLevels), currentLevel)
                && overallBestTime == RunningBest(old(overallBestTime), old(timeElapsed))
                && (result.levelRecord <==> IsLevelRecord(Some(old(CurrentEntry())), old(timeElapsed)))
                && (result.gameRecord <==> old(overallBestTime).None? || old(timeElapsed) < old(overallBestTime).value)
                && addedIngredients == old(addedIngredients)
      ensures result.Failed? ==>
                && result.ingredients == Judge(CurrentCocktail().ingredients, old(addedIngredients))
                && result.stirsOk == CheckStirs(old(stirCount), CurrentCocktail())
                && levelStats == old(levelStats)
                && completedLevels == old(completedLevels)
                && (retry ==> Phase() == Idle && addedIngredients == [] && timeElapsed == 0)
                && (!retry ==> unchanged(this))
      ensures Progressed(old(levelStats), levelStats)
      ensures unchanged(this`currentLevel, this`isLevelResetForReplay, this`isGameCompleted)
    {
      if !levelStarted {
        return Rejected(NotStarted);
      }
      if !isTimerRunning {
        return Rejected(NotRunning);
      }
      if |addedIngredients| == 0 {
        return Rejected(GlassEmpty);
      }
      var recipe := CurrentCocktail();
      var verdict := CheckIngredients(recipe.ingredients, addedIngredients);
      var stirsOk := CheckStirs(stirCount, recipe);
      if verdict == AllPresent && stirsOk {
        result := LevelCompleted();
      } else {
        LevelFailed(retry);
        result := Failed(verdict, stirsOk);
      }
    }

    /** levelCompleted: the session ends and the win is recorded. The level-record notice
        compares against the best time held before this win. */
    method LevelCompleted() returns (result: Submission)
      requires Valid() && Phase() == Running
      modifies this`isTimerRunning, this`levelStarted, this`levelStats, this`overallBestTime, this`completedLevels
      ensures Valid() && Phase() == Idle
      ensures result.Completed? && result.time == old(timeElapsed)
      ensures levelStats == old(levelStats)[currentLevel := AfterCompletion(Some(old(CurrentEntry())), timeElapsed)]
      ensures completedLevels == AddOnce(old(completedLevels), currentLevel)
      ensures overallBestTime == RunningBest(old(overallBestTime), timeElapsed)
      ensures result.levelRecord <==> IsLevelRecord(Some(old(CurrentEntry())), timeElapsed)
      ensures result.gameRecord <==> old(overallBestTime).None? || timeElapsed < old(overallBestTime).value
      ensures Progressed(old(levelStats), levelStats)
    {
      var before := levelStats[currentLevel];
      UpdatesProgress(levelStats, currentLevel, timeElapsed, true);
      StopTimer();
      levelStarted := false;
      var gameRecord := RecordLevelCompletion(timeElapsed);
      result := Completed(timeElapsed, IsLevelRecord(Some(before), timeElapsed), gameRecord);
    }

    /** levelFailed: nothing is recorded; a retry stops the timer and resets the level,
        otherwise the level keeps running. */
    method LevelFailed(retry: bool)
      requires Valid()
      modifies this
      ensures Valid()
      ensures retry ==> Phase() == Idle && addedIngredients == [] && stirCount == 0 && timeElapsed == 0
                        && flipStates == map[] && levelTime == TimeLimit(CurrentCocktail())
      ensures !retry ==> unchanged(this)
      ensures levelStats == old(levelStats)
      ensures unchanged(this`currentLevel, this`completedLevels, this`overallBestTime,
                        this`isLevelResetForReplay, this`isGameCompleted)
    {
      if retry {
        var entry := levelStats[currentLevel];
        StopTimer();
        ResetLevelState();
        SyncedAgreeing(entry);
      }
    }

    /** resetCompletedLevelForReplay: a stopped, empty session on the same level, marked so
        that the next start replays it; statistics and the time limit are kept. */
    method ResetCompletedLevelForReplay()
      requires Valid()
      modifies this`addedIngredients, this`stirCount, this`isGamePaused, this`flipStates,
               this`isTimerRunning, this`timeElapsed, this`levelStarted, this`isLevelResetForReplay
      ensures Valid() && Phase() == Idle && isLevelResetForReplay
      ensures addedIngredients == [] && stirCount == 0 && timeElapsed == 0 && flipStates == map[]
    {
      ResetGlass();
      isGamePaused := false;
      flipStates := map[];
      StopTimer();
      timeElapsed := 0;
      levelStarted := false;
      isLevelResetForReplay := true;
    }

    /** The start button: idle starts (or offers a replay of a completed level, or a full
        restart after the game was finished), running pauses, paused resumes. */
    method PressStart(confirm: bool, confirmAgain: bool) returns (notice: Notice)
      requires Valid()
      modifies this
      ensures Valid()
      ensures old(Phase()) == Running ==>
                Phase() == Paused && levelStarted && notice == Done
                && unchanged(this`addedIngredients, this`stirCount, this`timeElapsed, this`levelStats, this`flipStates)
      ensures old(Phase()) == Paused ==>
                Phase() == Running && notice == Done
                && unchanged(this`addedIngredients, this`stirCount, this`timeElapsed, this`levelStats, this`flipStates)
      ensures old(Phase()) == Idle && old(isGameCompleted) ==>
                if confirm && confirmAgain then
                  currentLevel == 1 && completedLevels == [] && levelStats == map[1 := Unplayed]
                  && overallBestTime == None && !isGameCompleted && Phase() == Idle
                else unchanged(this)
      ensures old(Phase()) == Idle && !old(isGameCompleted) && old(isLevelResetForReplay) ==>
                Phase() == Running && !isLevelResetForReplay && addedIngredients == [] && timeElapsed == 0
                && levelStats == old(levelStats)
      ensures old(Phase()) == Idle && !old(isGameCompleted) && !old(isLevelResetForReplay)
              && old(currentLevel in completedLevels) ==>
                if confirm then Phase() == Idle && isLevelResetForReplay && addedIngredients == []
                else unchanged(this)
      ensures old(Phase()) == Idle && !old(isGameCompleted) && !old(isLevelResetForReplay)
              && old(currentLevel !in completedLevels) ==>
                Phase() == Running && addedIngredients == [] && timeElapsed == 0 && levelStats == old(levelStats)
      ensures !(old(Phase()) == Idle && old(isGameCompleted)) ==>
                unchanged(this`currentLevel, this`completedLevels, this`overallBestTime)
    {
      notice := Done;
      if !levelStarted && !isTimerRunning {
        if isGameCompleted {
          if confirm {
            RestartGameCompletely(confirmAgain);
          }
          return;
        }
        if isLevelResetForReplay {
          notice := StartLevel();
          isLevelResetForReplay := false;
          return;
        }
        if currentLevel in completedLevels {
          if confirm {
            ResetCompletedLevelForReplay();
          }
        } else {
          notice := StartLevel();
        }
      } else if levelStarted && isTimerRunning {
        PauseTimer();
      } else if levelStarted && isGamePaused {
        StartTimer();
      }
    }

    // ----- finishing and restarting -----

    /** showCompletionOptions: offered only on the last level once it is completed; the
        player either restarts or dismisses, which marks the game finished. */
    method ShowCompletionOptions(restart: bool, confirm: bool)
      requires Valid()
      modifies this
      ensures Valid()
      ensures old(currentLevel) < |cocktails| || old(currentLevel) !in old(completedLevels) ==> unchanged(this)
      ensures old(currentLevel) == |cocktails| && old(currentLevel) in old(completedLevels) && !restart ==>
                isGameCompleted && unchanged(this`currentLevel, this`completedLevels, this`levelStats, this`overallBestTime)
      ensures old(currentLevel) == |cocktails| && old(currentLevel) in old(completedLevels) && restart && confirm ==>
                currentLevel == 1 && completedLevels == [] && levelStats == map[1 := Unplayed]
                && overallBestTime == None && !isGameCompleted
                && Phase() == Idle && addedIngredients == [] && timeElapsed == 0
      ensures old(currentLevel) == |cocktails| && old(currentLevel) in old(completedLevels) && restart && !confirm ==>
                unchanged(this)
    {
      if currentLevel < |cocktails| || currentLevel !in completedLevels {
        return;
      }
      if restart {
        RestartGameCompletely(confirm);
      } else {
        isGameCompleted := true;
      }
    }

    /** restartGameCompletely: after confirmation, all progress is forgotten and level 1
        is loaded. */
    method RestartGameCompletely(confirm: bool)
      requires Valid()
      modifies this
      ensures Valid()
      ensures !confirm ==> unchanged(this)
      ensures confirm ==>
                && currentLevel == 1 && completedLevels == [] && levelStats == map[1 := Unplayed]
                && overallBestTime == None && !isGameCompleted
                && Phase() == Idle && addedIngredients == [] && timeElapsed == 0
                && levelTime == TimeLimit(cocktails[0])
      ensures isLevelResetForReplay == old(isLevelResetForReplay)
    {
      if !confirm {
        return;
      }
      currentLevel := 1;
      completedLevels := [];
      levelStats := map[];
      overallBestTime := None;
      isGameCompleted := false;
      LoadLevel(1);
    }

    /** restartGame (game.js's restart button): the same reset of progress, without
        touching the finished-game mark. */
    method RestartGame()
      requires Valid()
      modifies this
      ensures Valid()
      ensures currentLevel == 1 && completedLevels == [] && levelStats == map[1 := Unplayed]
      ensures overallBestTime == None
      ensures Phase() == Idle && addedIngredients == [] && timeElapsed == 0
      ensures levelTime == TimeLimit(cocktails[0])
      ensures unchanged(this`isGameCompleted, this`isLevelResetForReplay)
    {
      StopTimer();
      currentLevel := 1;
      completedLevels := [];
      levelStats := map[];
      overallBestTime := None;
      LoadLevel(1);
    }
  }

  /** Ticks chain: a running level with a two-second limit and a fresh clock is still
      running after one tick and times out on the second. */
  method TwoTicksToTimeOut(g: BartenderGame) returns (first: bool, second: bool)
    requires g.Valid() && g.Phase() == Running && g.timeElapsed == 0 && g.levelTime == 2
    modifies g
    ensures !first && second
    ensures g.Valid() && g.Phase() == Idle && g.timeElapsed == 2
  {
    first := g.Tick(false);
    second := g.Tick(false);
  }
}

=== FILE: progress.dfy ===
/** The progress store: one statistics entry per level, the rules each game event applies
    to an entry, and the aggregate figures computed over all entries. */
module Progress {
  import opened Cocktails

  /** A level's statistics entry. A missing `bestTime` is the game's `null`. */
  datatype LevelStats = LevelStats(
    completed: bool,
    bestTime: Option<int>,
    attempts: int,
    totalTime: int,
    successRate: int)

  /** The entry a level gets when it is first shown. */
  const Unplayed := LevelStats(false, None, 0, 0, 0)

  /** Entries the game itself writes: counters never negative, rate a percentage,
      a best time never negative. */
  predicate WellFormed(s: LevelStats) {
    && s.attempts >= 0
    && s.totalTime >= 0
    && 0 <= s.successRate <= 100
    && (s.bestTime.Some? ==> s.bestTime.value >= 0)
  }

  predicate AllWellFormed(m: map<int, LevelStats>) {
    forall k :: k in m ==> WellFormed(m[k])
  }

  /** `Math.round(a / b)` for b > 0: the nearest integer, halves rounded up. */
  function RoundDiv(a: int, b: int): (r: int)
    requires b > 0
    ensures 2 * b * r <= 2 * a + b < 2 * b * r + 2 * b
  {
    (2 * a + b) / (2 * b)
  }

  /** Multiplying by a positive number keeps the sign. */
  lemma MulSign(d: int, y: int)
    requires d > 0
    ensures d * y >= 0 <==> y >= 0
    ensures d * y > 0 <==> y > 0
  {
  }

  /** The quotient of Euclidean division is the unique q with d*q <= n < d*q + d. */
  lemma DivUnique(n: int, d: int, q: int)
    requires d > 0 && d * q <= n < d * q + d
    ensures n / d == q
  {
    var r, m := n / d, n % d;
    assert n == d * r + m && 0 <= m < d;
    assert d * (q - r - 1) == d * q - d * r - d;
    assert d * (r - q - 1) == d * r - d * q - d;
    MulSign(d, q - r - 1);
    MulSign(d, r - q - 1);
  }

  /** The quotient is exact when the division is. */
  lemma RoundDivExact(q: int, b: int)
    requires b > 0
    ensures RoundDiv(q * b, b) == q
  {
    assert 2 * b * q == 2 * (q * b);
    DivUnique(2 * (q * b) + b, 2 * b, q);
  }

  /** Rounding keeps order. */
  lemma RoundDivMonotone(a: int, a': int, b: int)
    requires b > 0 && a <= a'
    ensures RoundDiv(a, b) <= RoundDiv(a', b)
  {
    var r, r' := RoundDiv(a, b), RoundDiv(a', b);
    assert 2 * b * (r - r' - 1) == 2 * b * r - 2 * b * r' - 2 * b;
    MulSign(2 * b, r - r' - 1);
  }

  // ----- best times -----

  /** The best time as it should evolve: the smaller of the old best and `t`, an absent
      best counting as infinitely slow. */
  function RunningBest(best: Option<int>, t: int): (r: Option<int>)
    ensures r.Some? && r.value <= t
    ensures best.Some? ==> r.value <= best.value
    ensures r == Some(t) || r == best
  {
    if best.None? || t < best.value then Some(t) else best
  }

  /** JavaScript truthiness of a stored time: `null` and `0` both read as absent. */
  predicate Truthy(best: Option<int>) {
    best.Some? && best.value != 0
  }

  /** `if (!best || t < best) best = t` exactly as written: a stored 0 reads as absent and
      is overwritten by any later time. */
  function BestAsWritten(best: Option<int>, t: int): (r: Option<int>)
    ensures r.Some? && r.value <= t
    ensures Truthy(best) ==> r.value <= best.value
  {
    if !Truthy(best) || t < best.value then Some(t) else best
  }

  /** Apart from a stored 0, the written rule is the running minimum. */
  lemma BestAsWrittenAgreesAwayFromZero(best: Option<int>, t: int)
    requires best != Some(0)
    ensures BestAsWritten(best, t) == RunningBest(best, t)
  {
  }

  /** A 0-second best followed by a 5-second completion: the written rule replaces the
      record with the slower time. */
  lemma ZeroBestIsLost()
    ensures BestAsWritten(Some(0), 5) == Some(5)
    ensures RunningBest(Some(0), 5) == Some(0)
  {
  }

  // ----- per-entry updates -----

  function AttemptsOf(entry: Option<LevelStats>): int {
    if entry.Some? then entry.value.attempts else 0
  }

  function TotalTimeOf(entry: Option<LevelStats>): int {
    if entry.Some? then entry.value.totalTime else 0
  }

  function BestOf(entry: Option<LevelStats>): Option<int> {
    if entry.Some? then entry.value.bestTime else None
  }

  /** recordLevelCompletion's update of the level's own entry (shipped copies). */
  function AfterCompletion(entry: Option<LevelStats>, t: int): (r: LevelStats)
    ensures r.completed && r.successRate == 100
    ensures r.attempts == AttemptsOf(entry) + 1
    ensures r.totalTime == TotalTimeOf(entry) + t
    ensures r.bestTime == RunningBest(BestOf(entry), t)
  {
    match entry
    case None => LevelStats(true, Some(t), 1, t, 100)
    case Some(s) =>
      s.(completed := true, attempts := s.attempts + 1, totalTime := s.totalTime + t,
         bestTime := RunningBest(s.bestTime, t), successRate := 100)
  }

  /** recordLevelAttempt's update: one more attempt, the time played (never negative)
      added, best time and completion untouched; an uncompleted level's rate drops to 0. */
  function AfterAttempt(entry: Option<LevelStats>, elapsed: int): (r: LevelStats)
    ensures r.attempts == AttemptsOf(entry) + 1
    ensures r.totalTime == TotalTimeOf(entry) + (if elapsed > 0 then elapsed else 0)
    ensures r.bestTime == BestOf(entry)
    ensures r.completed == (entry.Some? && entry.value.completed)
    ensures !r.completed ==> r.successRate == 0
    ensures r.completed ==> r.successRate == entry.value.successRate
  {
    var t := if elapsed > 0 then elapsed else 0;
    match entry
    case None => LevelStats(false, None, 1, t, 0)
    case Some(s) =>
      s.(attempts := s.attempts + 1, totalTime := s.totalTime + t,
         successRate := if !s.completed then 0 else s.successRate)
  }

  /** recordLevelCompletion in the older copy: as above, but no running total of time. */
  function AfterCompletionUntimed(entry: Option<LevelStats>, t: int): (r: LevelStats)
    ensures r.completed && r.successRate == 100
    ensures r.attempts == AttemptsOf(entry) + 1
    ensures r.totalTime == TotalTimeOf(entry)
    ensures r.bestTime == RunningBest(BestOf(entry), t)
  {
    match entry
    case None => LevelStats(true, Some(t), 1, 0, 100)
    case Some(s) =>
      s.(completed := true, attempts := s.attempts + 1,
         bestTime := RunningBest(s.bestTime, t), successRate := 100)
  }

  /** recordLevelFailure in the older copy: one more attempt; the rate counts every earlier
      attempt of a completed level as a success and is 0 for an uncompleted one. */
  function AfterFailure(entry: Option<LevelStats>): (r: LevelStats)
    requires entry.Some? ==> entry.value.attempts >= 0
    ensures r.attempts == AttemptsOf(entry) + 1
    ensures r.bestTime == BestOf(entry) && r.totalTime == TotalTimeOf(entry)
    ensures r.completed == (entry.Some? && entry.value.completed)
    ensures 0 <= r.successRate <= 100
    ensures !r.completed ==> r.successRate == 0
    ensures r.completed && r.attempts >= 2 ==> r.successRate >= 50
  {
    match entry
    case None => LevelStats(false, None, 1, 0, 0)
    case Some(s) =>
      var n := s.attempts + 1;
      var successes := if s.completed then n - 1 else 0;
      FailureRateBounds(s.completed, n);
      s.(attempts := n, successRate := RoundDiv(100 * successes, n))
  }

  lemma FailureRateBounds(completed: bool, n: int)
    requires n >= 1
    ensures var r := RoundDiv(100 * (if completed then n - 1 else 0), n);
            && 0 <= r <= 100
            && (!completed ==> r == 0)
            && (completed && n >= 2 ==> r >= 50)
  {
    var successes := if completed then n - 1 else 0;
    RoundDivMonotone(0, 100 * successes, n);
    RoundDivMonotone(100 * successes, 100 * n, n);
    RoundDivExact(0, n);
    RoundDivExact(100, n);
    if completed && n >= 2 {
      RoundDivMonotone(50 * n, 100 * successes, n);
      RoundDivExact(50, n);
    }
  }

  /** updateCurrentLevelStats: the level gets an entry if it had none, and its completed
      flag is made to agree with the list of completed levels. */
  function Synced(entry: Option<LevelStats>, isCompleted: bool): (r: LevelStats)
    ensures r.completed == isCompleted
    ensures r.attempts == AttemptsOf(entry) && r.totalTime == TotalTimeOf(entry)
    ensures r.bestTime == BestOf(entry)
    ensures entry.None? ==> r.successRate == 0
    ensures entry.Some? ==> r.successRate == entry.value.successRate
  {
    (if entry.Some? then entry.value else Unplayed).(completed := isCompleted)
  }

  function EntryOf(m: map<int, LevelStats>, level: int): Option<LevelStats> {
    if level in m then Some(m[level]) else None
  }

  /** Every update keeps an entry well formed. */
  lemma UpdatesKeepWellFormed(entry: Option<LevelStats>, t: int, b: bool)
    requires entry.Some? ==> WellFormed(entry.value)
    requires t >= 0
    ensures WellFormed(AfterCompletion(entry, t))
    ensures WellFormed(AfterAttempt(entry, t))
    ensures WellFormed(AfterCompletionUntimed(entry, t))
    ensures WellFormed(AfterFailure(entry))
    ensures WellFormed(Synced(entry, b))
  {
  }

  /** Syncing an entry whose flag already agrees changes nothing. */
  lemma SyncedAgreeing(s: LevelStats)
    ensures Synced(Some(s), s.completed) == s
  {
  }

  /** What the store never loses between two moments of play: no level disappears, no
      attempt count or time total goes down, no best time gets worse. */
  predicate Progressed(before: map<int, LevelStats>, after: map<int, LevelStats>) {
    forall k :: k in before ==>
      && k in after
      && after[k].attempts >= before[k].attempts
      && after[k].totalTime >= before[k].totalTime
      && (before[k].bestTime.Some? ==>
            after[k].bestTime.Some? && after[k].bestTime.value <= before[k].bestTime.value)
  }

  lemma ProgressedTransitive(a: map<int, LevelStats>, b: map<int, LevelStats>, c: map<int, LevelStats>)
    requires Progressed(a, b) && Progressed(b, c)
    ensures Progressed(a, c)
  {
  }

  /** Each of the entry updates, applied to one level, is progress. */
  lemma UpdatesProgress(m: map<int, LevelStats>, k: int, t: int, b: bool)
    requires t >= 0
    ensures Progressed(m, m[k := AfterCompletion(EntryOf(m, k), t)])
    ensures Progressed(m, m[k := AfterAttempt(EntryOf(m, k), t)])
    ensures Progressed(m, m[k := AfterCompletionUntimed(EntryOf(m, k), t)])
    ensures Progressed(m, m[k := Synced(EntryOf(m, k), b)])
    ensures AllWellFormed(m) ==> Progressed(m, m[k := AfterFailure(EntryOf(m, k))])
  {
  }

  // ----- the announced level record -----

  /** levelCompleted builds its message after the entry was updated, then announces a
      level record when the time beats the (already updated) best time. */
  predicate AnnouncedLevelRecord(after: LevelStats, t: int)
    ensures after.bestTime.None? || after.bestTime == Some(0) ==> !AnnouncedLevelRecord(after, t)
    ensures after.bestTime.Some? && after.bestTime.value != 0 ==>
              (AnnouncedLevelRecord(after, t) <==> t < after.bestTime.value)
  {
    Truthy(after.bestTime) && t < after.bestTime.value
  }

  /** The message can never fire: the updated best is never above `t`, whether the entry
      `stats` was updated by the rule as written or by the running minimum. */
  lemma LevelRecordNeverAnnounced(entry: Option<LevelStats>, stats: LevelStats, t: int)
    ensures !AnnouncedLevelRecord(stats.(bestTime := BestAsWritten(stats.bestTime, t)), t)
    ensures !AnnouncedLevelRecord(AfterCompletion(entry, t), t)
    ensures !AnnouncedLevelRecord(AfterCompletionUntimed(entry, t), t)
  {
  }

  /** The evidently intended test: `t` beats the best time held before this completion. */
  predicate IsLevelRecord(before: Option<LevelStats>, t: int) {
    BestOf(before).Some? && t < BestOf(before).value
  }

  /** A record under the intended test is exactly a strict drop of the best time. */
  lemma LevelRecordMeansBestImproved(before: Option<LevelStats>, t: int)
    ensures IsLevelRecord(before, t) <==>
            BestOf(before).Some? && AfterCompletion(before, t).bestTime.value < BestOf(before).value
  {
  }

  // ----- aggregate statistics -----

  /** Running totals over the stats map. `bestSum`/`bestCount` gather the truthy best times
      of completed entries, for the older copy's average. */
  datatype Tally = Tally(attempts: int, totalTime: int, completed: int, bestSum: int, bestCount: int)

  const Zero := Tally(0, 0, 0, 0, 0)

  /** One entry's share: a best time is summed only for a completed entry whose best is
      truthy, so the timed count never outgrows the completed count. */
  function Add(t: Tally, s: LevelStats): (r: Tally)
    ensures r.attempts - t.attempts == s.attempts && r.totalTime - t.totalTime == s.totalTime
    ensures 0 <= r.bestCount - t.bestCount <= r.completed - t.completed <= 1
    ensures r.completed > t.completed <==> s.completed
    ensures r.bestCount > t.bestCount <==> s.completed && s.bestTime.Some? && s.bestTime.value != 0
    ensures r.bestCount > t.bestCount ==> r.bestSum == t.bestSum + s.bestTime.value
    ensures r.bestCount == t.bestCount ==> r.bestSum == t.bestSum
  {
    var timed := s.completed && Truthy(s.bestTime);
    Tally(t.attempts + s.attempts,
          t.totalTime + s.totalTime,
          t.completed + (if s.completed then 1 else 0),
          t.bestSum + (if timed then s.bestTime.value else 0),
          t.bestCount + (if timed then 1 else 0))
  }

  lemma NonEmptyHasKey(m: map<int, LevelStats>)
    requires m != map[]
    ensures exists x :: x in m
  {
    if forall x :: x !in m {
      assert false;
    }
  }

  ghost function Pick(m: map<int, LevelStats>): (k: int)
    requires m != map[]
    ensures k in m
  {
    NonEmptyHasKey(m);
    var k :| k in m; k
  }

  /** The totals over all entries, independent of visiting order (see TallyRemove). */
  ghost function TallyOf(m: map<int, LevelStats>): (r: Tally)
    ensures m == map[] ==> r == Zero
    ensures 0 <= r.bestCount <= r.completed <= |m|
    decreases |m|
  {
    if m == map[] then Zero
    else
      var k := Pick(m);
      assert |m - {k}| < |m| by { MapRemoveSize(m, k); }
      Add(TallyOf(m - {k}), m[k])
  }

  lemma MapRemoveSize(m: map<int, LevelStats>, k: int)
    requires k in m
    ensures |m - {k}| == |m| - 1
  {
    assert (m - {k}).Keys == m.Keys - {k};
  }

  /** Any entry may be counted last: the totals do not depend on the order in which
      `Object.values` yields the entries. */
  lemma {:induction false} TallyRemove(m: map<int, LevelStats>, k: int)
    requires k in m
    ensures TallyOf(m) == Add(TallyOf(m - {k}), m[k])
    decreases |m|
  {
    var j := Pick(m);
    if j != k {
      MapRemoveSize(m, k);
      MapRemoveSize(m, j);
      TallyRemove(m - {j}, k);
      TallyRemove(m - {k}, j);
      var rest := m - {j} - {k};
      assert rest == m - {k} - {j};
      AddCommutes(TallyOf(rest), m[k], m[j]);
    }
  }

  lemma AddCommutes(t: Tally, a: LevelStats, b: LevelStats)
    ensures Add(Add(t, a), b) == Add(Add(t, b), a)
  {
  }

  /** Totals over well-formed entries are bounded by the number of entries. */
  lemma {:induction false} TallyBounds(m: map<int, LevelStats>)
    requires AllWellFormed(m)
    ensures var t := TallyOf(m);
            && t.attempts >= 0 && t.totalTime >= 0
            && 0 <= t.completed <= |m|
            && 0 <= t.bestCount <= t.completed
            && t.bestSum >= 0
    decreases |m|
  {
    if m != map[] {
      var k := Pick(m);
      MapRemoveSize(m, k);
      TallyBounds(m - {k});
    }
  }

  /** Adding an entry under a fresh level adds it to the totals. */
  lemma TallyInsert(m: map<int, LevelStats>, k: int, s: LevelStats)
    requires k !in m
    ensures TallyOf(m[k := s]) == Add(TallyOf(m), s)
  {
    TallyRemove(m[k := s], k);
    assert m[k := s] - {k} == m;
  }

  /** `done` and `rest` share out the entries of `m` between them. */
  predicate Split(m: map<int, LevelStats>, done: map<int, LevelStats>, rest: map<int, LevelStats>) {
    && m.Keys == done.Keys + rest.Keys
    && done.Keys !! rest.Keys
    && (forall x :: x in done ==> x in m && done[x] == m[x])
    && (forall x :: x in rest ==> x in m && rest[x] == m[x])
  }

  lemma SplitStep(m: map<int, LevelStats>, done: map<int, LevelStats>, rest: map<int, LevelStats>, k: int)
    requires Split(m, done, rest) && k in rest
    ensures k !in done
    ensures Split(m, done[k := rest[k]], rest - {k})
  {
    assert done[k := rest[k]].Keys == done.Keys + {k};
    assert (rest - {k}).Keys == rest.Keys - {k};
  }

  lemma SplitDone(m: map<int, LevelStats>, done: map<int, LevelStats>)
    requires Split(m, done, map[])
    ensures done == m
  {
    var none: map<int, LevelStats> := map[];
    assert none.Keys == {};
    assert done.Keys == m.Keys;
    forall x | x in m ensures x in done && done[x] == m[x] {
    }
  }

  /** A map whose keys are levels 1..n has at most n entries. */
  lemma {:induction false} KeysInRange(m: map<int, LevelStats>, n: nat)
    requires forall k :: k in m ==> 1 <= k <= n
    ensures |m| <= n
    decreases n
  {
    if n == 0 {
      if m != map[] {
        NonEmptyHasKey(m);
      }
    } else {
      var m' := m - {n};
      KeysInRange(m', n - 1);
      if n in m {
        MapRemoveSize(m, n);
      } else {
        assert m' == m;
      }
    }
  }

  /** updateOverallStats' loop: visit each entry once, in whatever order, adding it in. */
  method SumStats(m: map<int, LevelStats>) returns (t: Tally)
    ensures t == TallyOf(m)
  {
    t := Zero;
    var done: map<int, LevelStats> := map[];
    var rest := m;
    while rest != map[]
      invariant Split(m, done, rest)
      invariant t == TallyOf(done)
      decreases |rest|
    {
      NonEmptyHasKey(rest);
      var k :| k in rest;
      var s := rest[k];
      MapRemoveSize(rest, k);
      SplitStep(m, done, rest, k);
      TallyInsert(done, k, s);
      t := Add(t, s);
      done := done[k := s];
      rest := rest - {k};
    }
    SplitDone(m, done);
  }

  /** The three figures the statistics panel shows. `averageTime` is None for "--:--". */
  datatype Overview = Overview(gamesPlayed: int, successPercent: int, averageTime: Option<int>)

  /** Shipped rule: the success figure is the share of completed levels, the average is
      total time over total attempts. */
  function OverviewOf(t: Tally, totalLevels: int): (o: Overview)
    ensures o.gamesPlayed == t.attempts
    ensures totalLevels <= 0 ==> o.successPercent == 0
    ensures totalLevels > 0 ==> 2 * totalLevels * o.successPercent <= 200 * t.completed + totalLevels
                                < 2 * totalLevels * o.successPercent + 2 * totalLevels
    ensures o.averageTime.Some? <==> t.attempts > 0
    ensures o.averageTime.Some? ==>
      2 * t.attempts * o.averageTime.value <= 2 * t.totalTime + t.attempts
      < 2 * t.attempts * o.averageTime.value + 2 * t.attempts
  {
    Overview(
      t.attempts,
      if totalLevels > 0 then RoundDiv(100 * t.completed, totalLevels) else 0,
      if t.attempts > 0 then Some(RoundDiv(t.totalTime, t.attempts)) else None)
  }

  /** Older rule: the average is over the best times of completed levels that have one. */
  function ReserveOverviewOf(t: Tally, totalLevels: int): (o: Overview)
    ensures o.gamesPlayed == t.attempts
    ensures o.successPercent == OverviewOf(t, totalLevels).successPercent
    ensures o.averageTime.Some? <==> t.bestCount > 0
    ensures o.averageTime.Some? ==>
      2 * t.bestCount * o.averageTime.value <= 2 * t.bestSum + t.bestCount
      < 2 * t.bestCount * o.averageTime.value + 2 * t.bestCount
  {
    Overview(
      t.attempts,
      if totalLevels > 0 then RoundDiv(100 * t.completed, totalLevels) else 0,
      if t.bestCount > 0 then Some(RoundDiv(t.bestSum, t.bestCount)) else None)
  }

  /** The success figure is a percentage; it is 100 when every level is completed, and
      below 100 otherwise as long as there are fewer than 200 levels (from 200 on, one
      missing level rounds away). */
  lemma SuccessPercentBounds(t: Tally, totalLevels: int)
    requires 0 <= t.completed <= totalLevels
    ensures 0 <= OverviewOf(t, totalLevels).successPercent <= 100
    ensures t.completed == totalLevels > 0 ==> OverviewOf(t, totalLevels).successPercent == 100
    ensures t.completed < totalLevels < 200 ==> OverviewOf(t, totalLevels).successPercent < 100
  {
    if totalLevels > 0 {
      var r := RoundDiv(100 * t.completed, totalLevels);
      RoundDivMonotone(0, 100 * t.completed, totalLevels);
      RoundDivMonotone(100 * t.completed, 100 * totalLevels, totalLevels);
      RoundDivExact(0, totalLevels);
      RoundDivExact(100, totalLevels);
      if t.completed < totalLevels < 200 {
        assert 2 * totalLevels * (r - 100) == 2 * totalLevels * r - 200 * totalLevels;
        MulSign(2 * totalLevels, r - 100);
      }
    }
  }

  /** With 200 levels and 199 completed, the success figure already reads 100%. */
  lemma SuccessPercentRoundsUp()
    ensures OverviewOf(Tally(0, 0, 199, 0, 0), 200).successPercent == 100
  {
  }

  /** The average time shown is never negative when the entries are well formed. */
  lemma AverageTimeNonNegative(m: map<int, LevelStats>, totalLevels: int)
    requires AllWellFormed(m)
    ensures OverviewOf(TallyOf(m), totalLevels).averageTime.Some? ==>
            OverviewOf(TallyOf(m), totalLevels).averageTime.value >= 0
    ensures ReserveOverviewOf(TallyOf(m), totalLevels).averageTime.Some? ==>
            ReserveOverviewOf(TallyOf(m), totalLevels).averageTime.value >= 0
  {
    TallyBounds(m);
    var t := TallyOf(m);
    if t.attempts > 0 { RoundDivMonotone(0, t.totalTime, t.attempts); RoundDivExact(0, t.attempts); }
    if t.bestCount > 0 { RoundDivMonotone(0, t.bestSum, t.bestCount); RoundDivExact(0, t.bestCount); }
  }

  /** What the game keeps between sessions. Missing keys are None / empty. */
  datatype SavedGame = SavedGame(
    currentLevel: Option<int>,
    completedLevels: seq<int>,
    levelStats: map<int, LevelStats>,
    overallBestTime: Option<int>)
}

=== FILE: reserve.dfy ===
/** The older copy of the game (reservgame.js): the same glass and recipe checks, but a
    wrong glass counts as a failed attempt, the stir check tolerates one stir either way,
    there is no pause, and a completed level stays "started" with its timer stopped until
    another level is loaded. */
module ReserveGame {
  import opened Cocktails
  import opened Validator
  import opened Progress
  import Game

  /** The session as the start button labels it: "Start Level", "Time Running...", or
      "Level Completed" (started, timer stopped). */
  datatype Phase = Idle | Running | Finished

  class ReserveGame {
    /** The recipe catalog; level n plays `cocktails[n - 1]`. */
    const cocktails: seq<Cocktail>

    var addedIngredients: seq<Poured>
    var stirCount: nat
    var levelTime: int
    var timeElapsed: nat
    var isTimerRunning: bool
    var levelStarted: bool
    var flipStates: map<string, bool>
    var completedLevels: seq<int>
    var currentLevel: int
    var levelStats: map<int, LevelStats>
    var overallBestTime: Option<int>

    ghost predicate Catalogued()
      reads this`currentLevel
    {
      |cocktails| >= 1 && 1 <= currentLevel <= |cocktails|
    }

    ghost predicate GlassValid()
      reads this`addedIngredients
    {
      && |addedIngredients| <= MaxIngredients
      && forall i :: 0 <= i < |addedIngredients| ==> FlipHonoured(addedIngredients[i])
    }

    ghost predicate ProgressValid()
      reads this`completedLevels, this`levelStats
    {
      NoDuplicates(completedLevels) && AllWellFormed(levelStats)
    }

    ghost predicate CurrentSynced()
      reads this`currentLevel, this`levelStats, this`completedLevels
    {
      currentLevel in levelStats && levelStats[currentLevel].completed == (currentLevel in completedLevels)
    }

    /** The timer only runs in a started level, and a started level whose timer is off is
        one that was just completed. */
    ghost predicate SessionValid()
      reads this`isTimerRunning, this`levelStarted, this`currentLevel, this`completedLevels
    {
      && (isTimerRunning ==> levelStarted)
      && (levelStarted && !isTimerRunning ==> currentLevel in completedLevels)
    }

    ghost predicate Valid()
      reads this
    {
      Catalogued() && GlassValid() && ProgressValid() && CurrentSynced() && SessionValid()
    }

    function Phase(): Phase
      reads this`isTimerRunning, this`levelStarted
    {
      if isTimerRunning then Running else if levelStarted then Finished else Idle
    }

    function CurrentCocktail(): Cocktail
      reads this`currentLevel
      requires Catalogued()
    {
      cocktails[currentLevel - 1]
    }

    function CurrentEntry(): LevelStats
      reads this`currentLevel, this`levelStats, this`completedLevels
      requires CurrentSynced()
    {
      levelStats[currentLevel]
    }

    /** saveGameState: the level, the completed list, the stats map and the overall best
        (the timestamp is left out). Reading such a save back at start-up resumes the same
        level with the same progress. */
    function SaveGameState(): (saved: SavedGame)
      reads this`currentLevel, this`completedLevels, this`levelStats, this`overallBestTime
      requires Catalogued() && ProgressValid() && CurrentSynced()
      ensures Game.WellFormedSave(saved)
      ensures Game.InitialLevel(saved, |cocktails|) == currentLevel
      ensures saved.completedLevels == completedLevels && saved.overallBestTime == overallBestTime
      ensures saved.levelStats[currentLevel :=
                Synced(EntryOf(saved.levelStats, currentLevel), currentLevel in saved.completedLevels)]
              == levelStats
    {
      SyncedAgreeing(levelStats[currentLevel]);
      SavedGame(Some(currentLevel), completedLevels, levelStats, overallBestTime)
    }

    /** Start-up: `currentLevel || 1`, lowered to the last level, then loaded (which raises
        it to 1). */
    constructor (catalog: seq<Cocktail>, saved: SavedGame)
      requires |catalog| >= 1 && Game.WellFormedSave(saved)
      ensures Valid() && Phase() == Idle
      ensures cocktails == catalog
      ensures currentLevel == Game.InitialLevel(saved, |catalog|)
      ensures completedLevels == saved.completedLevels
      ensures levelStats == saved.levelStats[currentLevel :=
                Synced(EntryOf(saved.levelStats, currentLevel), currentLevel in saved.completedLevels)]
      ensures overallBestTime == saved.overallBestTime
      ensures addedIngredients == [] && stirCount == 0 && timeElapsed == 0 && flipStates == map[]
      ensures levelTime == TimeLimit(CurrentCocktail())
    {
      cocktails := catalog;
      addedIngredients := [];
      stirCount := 0;
      levelTime := 0;
      timeElapsed := 0;
      isTimerRunning := false;
      levelStarted := false;
      flipStates := map[];
      completedLevels := saved.completedLevels;
      currentLevel := Game.InitialLevel(saved, |catalog|);
      levelStats := saved.levelStats;
      overallBestTime := saved.overallBestTime;
      new;
      Enter(currentLevel);
    }

    // ----- the glass -----

    /** resetGlass: empty glass, no stirs. */
    method ResetGlass()
      modifies this`addedIngredients, this`stirCount
      ensures addedIngredients == [] && stirCount == 0
    {
      addedIngredients := [];
      stirCount := 0;
    }

    /** addIngredientToGlass: a full glass ignores the pour silently, an upright alcohol
        bottle is refused with a message, anything else is appended. */
    method AddIngredientToGlass(kind: string, isFlipped: bool) returns (notice: Notice)
      requires GlassValid()
      modifies this`addedIngredients
      ensures GlassValid()
      ensures old(|addedIngredients|) >= MaxIngredients ==> notice == Ignored
      ensures old(|addedIngredients|) < MaxIngredients && IsAlcohol(kind) && !isFlipped ==> notice == FlipRequired
      ensures notice == Done <==> old(|addedIngredients|) < MaxIngredients && (IsAlcohol(kind) ==> isFlipped)
      ensures notice == Done ==> addedIngredients == old(addedIngredients) + [Poured(kind, isFlipped)]
      ensures notice != Done ==> addedIngredients == old(addedIngredients)
    {
      if |addedIngredients| >= MaxIngredients {
        return Ignored;
      }
      if IsAlcohol(kind) && !isFlipped {
        return FlipRequired;
      }
      addedIngredients := addedIngredients + [Poured(kind, isFlipped)];
      notice := Done;
    }

    /** The glass's drop handler: only while the timer runs. */
    method DropIngredient(kind: string) returns (notice: Notice)
      requires Valid()
      modifies this`addedIngredients
      ensures Valid()
      ensures Phase() != Running || kind == [] ==> notice == Ignored
      ensures notice == Done <==>
                Phase() == Running && kind != [] && old(|addedIngredients|) < MaxIngredients
                && (IsAlcohol(kind) ==> FlipOf(flipStates, kind))
      ensures notice == Done ==> addedIngredients == old(addedIngredients) + [Poured(kind, FlipOf(flipStates, kind))]
      ensures notice != Done ==> addedIngredients == old(addedIngredients)
    {
      if !levelStarted || !isTimerRunning || kind == [] {
        return Ignored;
      }
      notice := AddIngredientToGlass(kind, FlipOf(flipStates, kind));
    }

    /** toggleFlip: while the timer runs, an alcohol bottle turns over. */
    method ToggleFlip(kind: string)
      modifies this`flipStates
      ensures Phase() == Running && levelStarted && IsAlcohol(kind) ==>
                FlipOf(flipStates, kind) == !FlipOf(old(flipStates), kind)
      ensures !(Phase() == Running && levelStarted && IsAlcohol(kind)) ==> flipStates == old(flipStates)
      ensures forall k :: k != kind ==> FlipOf(flipStates, k) == FlipOf(old(flipStates), k)
    {
      if !levelStarted || !isTimerRunning {
        return;
      }
      if !IsAlcohol(kind) {
        return;
      }
      flipStates := flipStates[kind := !FlipOf(flipStates, kind)];
    }

    /** stirGlass: an empty glass is refused; otherwise one more stir. */
    method StirGlass() returns (notice: Notice)
      modifies this`stirCount
      ensures addedIngredients == [] ==> notice == GlassEmpty && stirCount == old(stirCount)
      ensures addedIngredients != [] ==> notice == Done && stirCount == old(stirCount) + 1
    {
      if |addedIngredients| == 0 {
        return GlassEmpty;
      }
      stirCount := stirCount + 1;
      notice := Done;
    }

    /** The stir button: ignored without a message unless the timer runs. */
    method PressStir() returns (notice: Notice)
      modifies this`stirCount
      ensures Phase() != Running || !levelStarted ==> notice == Ignored && stirCount == old(stirCount)
      ensures notice == Done <==> Phase() == Running && levelStarted && addedIngredients != []
      ensures stirCount == old(stirCount) + (if notice == Done then 1 else 0)
    {
      if !levelStarted || !isTimerRunning {
        return Ignored;
      }
      notice := StirGlass();
    }

    /** The reset button: while the timer runs only a confirmed reset empties the glass;
        otherwise it is emptied at once. */
    method PressReset(confirm: bool)
      modifies this`addedIngredients, this`stirCount
      ensures Phase() == Running && levelStarted && !confirm ==>
                addedIngredients == old(addedIngredients) && stirCount == old(stirCount)
      ensures !(Phase() == Running && levelStarted) || confirm ==> addedIngredients == [] && stirCount == 0
    {
      if levelStarted && isTimerRunning {
        if confirm {
          ResetGlass();
        }
      } else {
        ResetGlass();
      }
    }

    // ----- the timer -----

    /** startTimer: no effect while already running; otherwise the level runs. */
    method StartTimer()
      requires Valid()
      modifies this`isTimerRunning, this`levelStarted
      ensures Valid() && Phase() == Running
    {
      if isTimerRunning {
        return;
      }
      isTimerRunning := true;
      levelStarted := true;
    }

    method StopTimer()
      modifies this`isTimerRunning
      ensures !isTimerRunning
    {
      isTimerRunning := false;
    }

    /** One second of the interval: while running the clock advances by one, and reaching
        the limit times the level out. */
    method Tick() returns (timedOut: bool)
      requires Valid()
      modifies this
      ensures Valid()
      ensures timedOut <==> old(Phase()) == Running && old(timeElapsed) + 1 >= old(levelTime)
      ensures old(Phase()) != Running ==> unchanged(this)
      ensures old(Phase()) == Running ==> timeElapsed == old(timeElapsed) + 1
      ensures old(Phase()) == Running && !timedOut ==>
                Phase() == Running && unchanged(this`addedIngredients, this`stirCount, this`levelStats)
      ensures timedOut ==>
                && Phase() == Idle && addedIngredients == [] && stirCount == 0
                && levelStats == old(levelStats)[currentLevel := AfterFailure(Some(old(CurrentEntry())))]
      ensures Progressed(old(levelStats), levelStats)
      ensures unchanged(this`currentLevel, this`completedLevels, this`overallBestTime, this`levelTime, this`flipStates)
    {
      timedOut := false;
      if !isTimerRunning {
        return;
      }
      timeElapsed := timeElapsed + 1;
      if timeElapsed >= levelTime {
        timedOut := true;
        UpdatesProgress(levelStats, currentLevel, 0, true);
        TimeOut();
      }
    }

    /** timeOut: the timer stops, a failed attempt is recorded, the glass is emptied and the
        level is no longer started. The clock keeps the elapsed time. */
    method TimeOut()
      requires Valid() && Phase() == Running
      modifies this`isTimerRunning, this`levelStarted, this`levelStats, this`addedIngredients, this`stirCount
      ensures Valid() && Phase() == Idle
      ensures levelStats == old(levelStats)[currentLevel := AfterFailure(Some(old(CurrentEntry())))]
      ensures addedIngredients == [] && stirCount == 0
    {
      StopTimer();
      RecordLevelFailure();
      ResetGlass();
      levelStarted := false;
    }

    // ----- the progress store -----

    /** updateCurrentLevelStats. */
    method SyncCurrentLevelStats()
      requires Catalogued() && ProgressValid()
      modifies this`levelStats
      ensures Catalogued() && ProgressValid() && CurrentSynced()
      ensures levelStats == old(levelStats)[currentLevel :=
                Synced(EntryOf(old(levelStats), currentLevel), currentLevel in completedLevels)]
    {
      var entry := if currentLevel in levelStats then Some(levelStats[currentLevel]) else None;
      levelStats := levelStats[currentLevel := Synced(entry, currentLevel in completedLevels)];
    }

    /** recordLevelCompletion: the win is recorded without a time total, the game-wide best
        follows the minimum, and the level joins the completed list once. */
    method RecordLevelCompletion(t: nat) returns (gameRecord: bool)
      requires Catalogued() && ProgressValid() && CurrentSynced()
      modifies this`levelStats, this`overallBestTime, this`completedLevels
      ensures Catalogued() && ProgressValid() && CurrentSynced()
      ensures levelStats == old(levelStats)[currentLevel := AfterCompletionUntimed(Some(old(CurrentEntry())), t)]
      ensures overallBestTime == RunningBest(old(overallBestTime), t)
      ensures gameRecord <==> old(overallBestTime).None? || t < old(overallBestTime).value
      ensures completedLevels == AddOnce(old(completedLevels), currentLevel)
    {
      var after := AfterCompletionUntimed(Some(levelStats[currentLevel]), t);
      levelStats := levelStats[currentLevel := after];
      gameRecord := overallBestTime.None? || t < overallBestTime.value;
      if gameRecord {
        overallBestTime := Some(t);
      }
      completedLevels := AddOnce(completedLevels, currentLevel);
      UpdatesKeepWellFormed(Some(old(levelStats)[currentLevel]), t, true);
      SyncCurrentLevelStats();
      SyncedAgreeing(after);
    }

    /** recordLevelFailure: one more attempt and a recomputed success rate. */
    method RecordLevelFailure()
      requires Catalogued() && ProgressValid() && CurrentSynced()
      modifies this`levelStats
      ensures Catalogued() && ProgressValid() && CurrentSynced()
      ensures levelStats == old(levelStats)[currentLevel := AfterFailure(Some(old(CurrentEntry())))]
    {
      var after := AfterFailure(Some(levelStats[currentLevel]));
      UpdatesKeepWellFormed(Some(levelStats[currentLevel]), 0, true);
      levelStats := levelStats[currentLevel := after];
      SyncCurrentLevelStats();
      SyncedAgreeing(after);
    }

    /** updateOverallStats: attempts, the share of completed levels, and the average best
        time of completed levels. */
    method UpdateOverallStats() returns (o: Overview)
      requires ProgressValid()
      ensures o == ReserveOverviewOf(TallyOf(levelStats), |cocktails|)
      ensures o.gamesPlayed >= 0
      ensures o.averageTime.Some? ==> o.averageTime.value >= 0
      ensures (forall k :: k in levelStats ==> 1 <= k <= |cocktails|) ==> 0 <= o.successPercent <= 100
    {
      var t := SumStats(levelStats);
      o := ReserveOverviewOf(t, |cocktails|);
      TallyBounds(levelStats);
      AverageTimeNonNegative(levelStats, |cocktails|);
      if forall k :: k in levelStats ==> 1 <= k <= |cocktails| {
        KeysInRange(levelStats, |cocktails|);
        SuccessPercentBounds(t, |cocktails|);
      }
    }

    // ----- loading levels -----

    /** Loads an existing level: a fresh, stopped session with the recipe's time limit. */
    method Enter(level: int)
      requires |cocktails| >= 1 && 1 <= level <= |cocktails| && ProgressValid()
      modifies this`currentLevel, this`addedIngredients, this`stirCount, this`flipStates,
               this`isTimerRunning, this`timeElapsed, this`levelStarted, this`levelTime, this`levelStats
      ensures Valid() && Phase() == Idle && currentLevel == level
      ensures addedIngredients == [] && stirCount == 0 && timeElapsed == 0 && flipStates == map[]
      ensures levelTime == TimeLimit(CurrentCocktail())
      ensures levelStats == old(levelStats)[level := Synced(EntryOf(old(levelStats), level), level in completedLevels)]
    {
      currentLevel := level;
      ResetGlass();
      flipStates := map[];
      StopTimer();
      timeElapsed := 0;
      levelStarted := false;
      levelTime := TimeLimit(CurrentCocktail());
      SyncCurrentLevelStats();
    }

    /** showAllLevelsCompleted: back to level 1 with an empty completed list. */
    method ShowAllLevelsCompleted()
      requires |cocktails| >= 1 && AllWellFormed(levelStats)
      modifies this`currentLevel, this`completedLevels, this`addedIngredients, this`stirCount,
               this`flipStates, this`isTimerRunning, this`timeElapsed,
               this`levelStarted, this`levelTime, this`levelStats
      ensures Valid() && Phase() == Idle && currentLevel == 1 && completedLevels == []
      ensures levelTime == TimeLimit(CurrentCocktail())
      ensures addedIngredients == [] && stirCount == 0 && timeElapsed == 0 && flipStates == map[]
      ensures levelStats == old(levelStats)[1 := Synced(EntryOf(old(levelStats), 1), false)]
    {
      completedLevels := [];
      Enter(1);
    }

    /** loadLevel: numbers below 1 mean level 1; numbers past the last level end the game. */
    method LoadLevel(n: int)
      requires |cocktails| >= 1 && ProgressValid()
      modifies this`currentLevel, this`completedLevels, this`addedIngredients, this`stirCount,
               this`flipStates, this`isTimerRunning, this`timeElapsed,
               this`levelStarted, this`levelTime, this`levelStats
      ensures Valid() && Phase() == Idle
      ensures addedIngredients == [] && stirCount == 0 && timeElapsed == 0 && flipStates == map[]
      ensures n <= |cocktails| ==> currentLevel == (if n < 1 then 1 else n) && completedLevels == old(completedLevels)
      ensures n > |cocktails| ==> currentLevel == 1 && completedLevels == []
      ensures levelTime == TimeLimit(CurrentCocktail())
      ensures levelStats == old(levelStats)[currentLevel :=
                Synced(EntryOf(old(levelStats), currentLevel), currentLevel in completedLevels)]
    {
      var level := if n < 1 then 1 else n;
      if level > |cocktails| {
        ShowAllLevelsCompleted();
        return;
      }
      Enter(level);
    }

    /** nextLevel: only from a completed level that is not the last one. */
    method NextLevel() returns (notice: Notice)
      requires Valid()
      modifies this
      ensures Valid()
      ensures old(currentLevel) !in old(completedLevels) ==> notice == CurrentNotCompleted
      ensures old(currentLevel) in old(completedLevels) && old(currentLevel) >= |cocktails| ==> notice == AllLevelsCompleted
      ensures notice == Done <==> old(currentLevel) in completedLevels && old(currentLevel) < |cocktails|
      ensures notice != Done ==> unchanged(this)
      ensures notice == Done ==>
                && currentLevel == old(currentLevel) + 1
                && Phase() == Idle && addedIngredients == [] && timeElapsed == 0
                && Progressed(old(levelStats), levelStats)
      ensures unchanged(this`completedLevels, this`overallBestTime)
    {
      if currentLevel !in completedLevels {
        return CurrentNotCompleted;
      }
      if currentLevel >= |cocktails| {
        return AllLevelsCompleted;
      }
      UpdatesProgress(levelStats, currentLevel + 1, 0, currentLevel + 1 in completedLevels);
      LoadLevel(currentLevel + 1);
      notice := Done;
    }

    // ----- starting and checking -----

    /** startLevel with the clock restarted: a completed level or a running one is refused;
        otherwise the glass is emptied, the clock set to zero and the timer started. */
    method StartLevel() returns (notice: Notice)
      requires Valid()
      modifies this`addedIngredients, this`stirCount, this`timeElapsed, this`isTimerRunning, this`levelStarted
      ensures Valid()
      ensures notice == AlreadyCompleted <==> old(currentLevel in completedLevels)
      ensures notice == InProgress <==> old(currentLevel !in completedLevels) && old(Phase()) == Running
      ensures notice == Done <==> old(currentLevel !in completedLevels) && old(Phase()) == Idle
      ensures notice != Done ==> unchanged(this)
      ensures notice == Done ==>
                Phase() == Running && addedIngredients == [] && stirCount == 0 && timeElapsed == 0
    {
      if currentLevel in completedLevels {
        return AlreadyCompleted;
      }
      if levelStarted && isTimerRunning {
        return InProgress;
      }
      ResetGlass();
      timeElapsed := 0;
      StartTimer();
      notice := Done;
    }

    /** startLevel as written: the clock is not restarted, so a level retried after a time
        out still holds the elapsed time that timed it out. */
    method StartLevelAsWritten() returns (notice: Notice)
      requires Valid()
      modifies this`addedIngredients, this`stirCount, this`isTimerRunning, this`levelStarted
      ensures Valid()
      ensures notice == Done <==> old(currentLevel !in completedLevels) && old(Phase()) == Idle
      ensures notice != Done ==> unchanged(this)
      ensures notice == Done ==>
                Phase() == Running && addedIngredients == [] && stirCount == 0 && timeElapsed == old(timeElapsed)
    {
      if currentLevel in completedLevels {
        return AlreadyCompleted;
      }
      if levelStarted && isTimerRunning {
        return InProgress;
      }
      ResetGlass();
      StartTimer();
      notice := Done;
    }

    /** checkSolution: a verdict only while the timer runs and the glass holds something.
        A correct glass completes the level; a wrong one is a failed attempt and the level
        keeps running. */
    method CheckSolution() returns (result: Game.Submission)
      requires Valid()
      modifies this
      ensures Valid()
      ensures old(Phase()) == Idle ==> result == Game.Rejected(NotStarted)
      ensures old(Phase()) == Finished ==> result == Game.Rejected(NotRunning)
      ensures old(Phase()) == Running && old(addedIngredients) == [] ==> result == Game.Rejected(GlassEmpty)
      ensures result.Rejected? ==> unchanged(this)
      ensures !result.Rejected? ==>
                && old(Phase()) == Running && old(addedIngredients) != []
                && (result.Completed? <==>
                      Judge(CurrentCocktail().ingredients, old(addedIngredients)) == AllPresent
                      && CheckStirsWithTolerance(old(stirCount), CurrentCocktail()))
      ensures result.Completed? ==>
                && result.time == old(timeElapsed)
                && Phase() == Finished
                && levelStats == old(levelStats)[currentLevel :=
                     AfterCompletionUntimed(Some(old(CurrentEntry())), old(timeElapsed))]
                && completedLevels == AddOnce(old(completedLevels), currentLevel)
                && overallBestTime == RunningBest(old(overallBestTime), old(timeElapsed))
                && (result.levelRecord <==> IsLevelRecord(Some(old(CurrentEntry())), old(timeElapsed)))
                && (result.gameRecord <==> old(overallBestTime).None? || old(timeElapsed) < old(overallBestTime).value)
      ensures result.Failed? ==>
                && result.ingredients == Judge(CurrentCocktail().ingredients, old(addedIngredients))
                && result.stirsOk == CheckStirsWithTolerance(old(stirCount), CurrentCocktail())
                && Phase() == Running
                && levelStats == old(levelStats)[currentLevel := AfterFailure(Some(old(CurrentEntry())))]
                && completedLevels == old(completedLevels)
                && addedIngredients == old(addedIngredients) && timeElapsed == old(timeElapsed)
      ensures Progressed(old(levelStats), levelStats)
      ensures unchanged(this`currentLevel, this`addedIngredients, this`stirCount, this`timeElapsed,
                        this`levelTime, this`flipStates)
    {
      if !levelStarted {
        return Game.Rejected(NotStarted);
      }
      if !isTimerRunning {
        return Game.Rejected(NotRunning);
      }
      if |addedIngredients| == 0 {
        return Game.Rejected(GlassEmpty);
      }
      var recipe := CurrentCocktail();
      var verdict := CheckIngredients(recipe.ingredients, addedIngredients);
      var stirsOk := CheckStirsWithTolerance(stirCount, recipe);
      if verdict == AllPresent && stirsOk {
        result := LevelCompleted();
      } else {
        UpdatesProgress(levelStats, currentLevel, 0, true);
        LevelFailed();
        result := Game.Failed(verdict, stirsOk);
      }
    }

    /** levelCompleted: the timer stops with the level still started, and the win is
        recorded. The level-record notice compares against the best time held before this
        win. */
    method LevelCompleted() returns (result: Game.Submission)
      requires Valid() && Phase() == Running
      modifies this`isTimerRunning, this`levelStats, this`overallBestTime, this`completedLevels
      ensures Valid() && Phase() == Finished
      ensures result.Completed? && result.time == timeElapsed
      ensures levelStats == old(levelStats)[currentLevel := AfterCompletionUntimed(Some(old(CurrentEntry())), timeElapsed)]
      ensures completedLevels == AddOnce(old(completedLevels), currentLevel)
      ensures overallBestTime == RunningBest(old(overallBestTime), timeElapsed)
      ensures result.levelRecord <==> IsLevelRecord(Some(old(CurrentEntry())), timeElapsed)
      ensures result.gameRecord <==> old(overallBestTime).None? || timeElapsed < old(overallBestTime).value
      ensures Progressed(old(levelStats), levelStats)
    {
      var before := levelStats[currentLevel];
      UpdatesProgress(levelStats, currentLevel, timeElapsed, true);
      StopTimer();
      var gameRecord := RecordLevelCompletion(timeElapsed);
      result := Game.Completed(timeElapsed, IsLevelRecord(Some(before), timeElapsed), gameRecord);
    }

    /** levelFailed: the failed attempt is recorded; the glass, the clock and the timer are
        left as they were. */
    method LevelFailed()
      requires Valid()
      modifies this`levelStats
      ensures Valid()
      ensures levelStats == old(levelStats)[currentLevel := AfterFailure(Some(old(CurrentEntry())))]
    {
      RecordLevelFailure();
    }

    // ----- restarting -----

    /** restartGame: level 1 with no completed levels and no statistics; the game-wide best
        time is kept. */
    method RestartGame()
      requires Valid()
      modifies this
      ensures Valid()
      ensures currentLevel == 1 && completedLevels == [] && levelStats == map[1 := Unplayed]
      ensures overallBestTime == old(overallBestTime)
      ensures Phase() == Idle && addedIngredients == [] && timeElapsed == 0
      ensures levelTime == TimeLimit(cocktails[0])
    {
      StopTimer();
      currentLevel := 1;
      completedLevels := [];
      levelStats := map[];
      LoadLevel(1);
    }
  }

  /** A one-level catalog whose time limit is two seconds. */
  const TwoSecondCatalog := [Cocktail(1, "Sour", Some(2), [], None)]

  /** A fresh game on that catalog, started and left to time out. */
  method TimedOutGame() returns (g: ReserveGame)
    ensures fresh(g) && g.Valid() && g.Phase() == Idle
    ensures g.timeElapsed == 2 && g.levelTime == 2 && g.currentLevel !in g.completedLevels
  {
    g := new ReserveGame(TwoSecondCatalog, SavedGame(None, [], map[], None));
    var n := g.StartLevel();
    var t := g.Tick();
    t := g.Tick();
  }

  /** Retried with the clock as written, the level times out on its first tick. */
  method RetryAsWrittenExpiresAtOnce() returns (expires: bool)
    ensures expires
  {
    var g := TimedOutGame();
    var n := g.StartLevelAsWritten();
    expires := g.Tick();
  }

  /** Retried with the clock restarted, the first tick leaves the level running. */
  method RetryRestartedKeepsRunning() returns (expires: bool)
    ensures !expires
  {
    var g := TimedOutGame();
    var n := g.StartLevel();
    expires := g.Tick();
  }
}

=== FILE: validator.dfy ===
/** The solution checker: does the glass hold what the recipe asks for, and was it
    stirred enough. It only reads the glass and the recipe. */
module Validator {
  import opened Cocktails

  /** Number of pours of `kind` in the glass, flipped or not. */
  function CountOf(glass: seq<Poured>, kind: string): (n: nat)
    ensures n <= |glass|
  {
    if glass == [] then 0
    else CountOf(glass[..|glass| - 1], kind) + (if glass[|glass| - 1].kind == kind then 1 else 0)
  }

  /** Number of pours of `kind` that were poured from a flipped bottle. */
  function FlippedCountOf(glass: seq<Poured>, kind: string): (n: nat)
    ensures n <= CountOf(glass, kind)
  {
    if glass == [] then 0
    else
      var last := glass[|glass| - 1];
      FlippedCountOf(glass[..|glass| - 1], kind) + (if last.kind == kind && last.wasFlipped then 1 else 0)
  }

  /** Counting is additive over a glass split in two. */
  lemma {:induction false} CountAppend(a: seq<Poured>, b: seq<Poured>, kind: string)
    ensures CountOf(a + b, kind) == CountOf(a, kind) + CountOf(b, kind)
    ensures FlippedCountOf(a + b, kind) == FlippedCountOf(a, kind) + FlippedCountOf(b, kind)
    decreases |b|
  {
    if b != [] {
      assert (a + b)[..|a + b| - 1] == a + b[..|b| - 1];
      CountAppend(a, b[..|b| - 1], kind);
    } else {
      assert a + b == a;
    }
  }

  /** A requirement the glass satisfies: enough pours, and for an alcohol type enough
      flipped pours. */
  predicate Meets(r: Requirement, glass: seq<Poured>) {
    && CountOf(glass, r.kind) >= r.quantity
    && (IsAlcohol(r.kind) ==> FlippedCountOf(glass, r.kind) >= r.quantity)
  }

  /** The ingredient verdict and, on failure, the requirement that caused it. */
  datatype IngredientVerdict = AllPresent | Missing(kind: string) | NotFlipped(kind: string)

  /** Requirements are examined in recipe order and the first shortfall decides. */
  function Judge(required: seq<Requirement>, glass: seq<Poured>): (v: IngredientVerdict)
    ensures v.Missing? ==>
              exists i :: 0 <= i < |required| && required[i].kind == v.kind
                          && CountOf(glass, v.kind) < required[i].quantity
    ensures v.NotFlipped? ==>
              && IsAlcohol(v.kind)
              && (exists i :: 0 <= i < |required| && required[i].kind == v.kind
                              && FlippedCountOf(glass, v.kind) < required[i].quantity)
  {
    if required == [] then AllPresent
    else
      var r := required[0];
      if CountOf(glass, r.kind) < r.quantity then Missing(r.kind)
      else if IsAlcohol(r.kind) && FlippedCountOf(glass, r.kind) < r.quantity then NotFlipped(r.kind)
      else
        var v := Judge(required[1..], glass);
        assert forall i :: 0 <= i < |required| - 1 ==> required[1..][i] == required[i + 1];
        v
  }

  /** Requirement `i` is the first one the glass fails. */
  predicate FirstUnmet(required: seq<Requirement>, glass: seq<Poured>, i: int) {
    && 0 <= i < |required|
    && !Meets(required[i], glass)
    && forall j :: 0 <= j < i ==> Meets(required[j], glass)
  }

  /** The reason a failed requirement is reported with: a quantity shortfall is reported
      before a missing flip. */
  function Reason(r: Requirement, glass: seq<Poured>): IngredientVerdict {
    if CountOf(glass, r.kind) < r.quantity then Missing(r.kind) else NotFlipped(r.kind)
  }

  /** The verdict is AllPresent exactly when every requirement is met. */
  lemma {:induction false} JudgeAllPresent(required: seq<Requirement>, glass: seq<Poured>)
    ensures Judge(required, glass) == AllPresent <==>
            forall i :: 0 <= i < |required| ==> Meets(required[i], glass)
  {
    if required != [] {
      JudgeAllPresent(required[1..], glass);
      assert forall i :: 1 <= i < |required| ==> required[i] == required[1..][i - 1];
    }
  }

  /** Any other verdict names the first unmet requirement, with its reason. */
  lemma {:induction false} JudgeFirstUnmet(required: seq<Requirement>, glass: seq<Poured>)
    requires Judge(required, glass) != AllPresent
    ensures exists i :: FirstUnmet(required, glass, i) && Judge(required, glass) == Reason(required[i], glass)
  {
    if Meets(required[0], glass) {
      JudgeFirstUnmet(required[1..], glass);
      var k :| FirstUnmet(required[1..], glass, k) && Judge(required[1..], glass) == Reason(required[1..][k], glass);
      assert required[1..][k] == required[k + 1];
      forall j | 0 <= j < k + 1 ensures Meets(required[j], glass) {
        if j > 0 { assert required[j] == required[1..][j - 1]; }
      }
      assert FirstUnmet(required, glass, k + 1);
    } else {
      assert FirstUnmet(required, glass, 0);
    }
  }

  /** Pouring more never turns a passing glass into a failing one: surplus and unlisted
      ingredients are not penalised. */
  lemma ExtraPoursNeverPenalised(required: seq<Requirement>, glass: seq<Poured>, extra: seq<Poured>)
    requires Judge(required, glass) == AllPresent
    ensures Judge(required, glass + extra) == AllPresent
  {
    JudgeAllPresent(required, glass);
    JudgeAllPresent(required, glass + extra);
    forall i | 0 <= i < |required| ensures Meets(required[i], glass + extra) {
      CountAppend(glass, extra, required[i].kind);
      assert Meets(required[i], glass);
    }
  }

  /** `counts[type] || 0`. */
  function Lookup(counts: map<string, nat>, kind: string): nat {
    if kind in counts then counts[kind] else 0
  }

  /** checkIngredients: tally the glass into two count maps, then walk the recipe and stop
      at the first shortfall. */
  method CheckIngredients(required: seq<Requirement>, added: seq<Poured>) returns (verdict: IngredientVerdict)
    ensures verdict == Judge(required, added)
    ensures verdict == AllPresent <==> forall i :: 0 <= i < |required| ==> Meets(required[i], added)
  {
    var addedCounts: map<string, nat> := map[];
    var flippedCounts: map<string, nat> := map[];
    var i := 0;
    while i < |added|
      invariant 0 <= i <= |added|
      invariant forall k :: Lookup(addedCounts, k) == CountOf(added[..i], k)
      invariant forall k :: Lookup(flippedCounts, k) == FlippedCountOf(added[..i], k)
    {
      var ing := added[i];
      assert added[..i + 1][..i] == added[..i];
      addedCounts := addedCounts[ing.kind := Lookup(addedCounts, ing.kind) + 1];
      if ing.wasFlipped {
        flippedCounts := flippedCounts[ing.kind := Lookup(flippedCounts, ing.kind) + 1];
      }
      i := i + 1;
    }
    assert added[..|added|] == added;
    JudgeAllPresent(required, added);
    var j := 0;
    while j < |required|
      invariant 0 <= j <= |required|
      invariant Judge(required[j..], added) == Judge(required, added)
    {
      var req := required[j];
      assert required[j..][1..] == required[j + 1..];
      if Lookup(addedCounts, req.kind) < req.quantity {
        return Missing(req.kind);
      }
      if IsAlcohol(req.kind) && Lookup(flippedCounts, req.kind) < req.quantity {
        return NotFlipped(req.kind);
      }
      j := j + 1;
    }
    return AllPresent;
  }

  /** checkStirs as shipped: enough stirs, more are fine. */
  function CheckStirs(stirCount: int, c: Cocktail): (ok: bool)
    ensures c.requiredStirs.None? || c.requiredStirs == Some(0) ==> (ok <==> stirCount >= 3)
    ensures c.requiredStirs.Some? && c.requiredStirs.value != 0 ==> (ok <==> stirCount >= c.requiredStirs.value)
  {
    stirCount >= StirsRequired(c)
  }

  /** checkStirs in the older copy: within one stir of the requirement, either way. */
  function CheckStirsWithTolerance(stirCount: int, c: Cocktail): (ok: bool)
    ensures c.requiredStirs.None? || c.requiredStirs == Some(0) ==> (ok <==> 2 <= stirCount <= 4)
    ensures c.requiredStirs.Some? && c.requiredStirs.value != 0 ==>
              (ok <==> c.requiredStirs.value - 1 <= stirCount <= c.requiredStirs.value + 1)
  {
    -1 <= stirCount - StirsRequired(c) <= 1
  }

  /** Under the shipped policy extra stirring never hurts. */
  lemma StirringMoreNeverHurts(c: Cocktail, n: int, m: int)
    requires CheckStirs(n, c) && n <= m
    ensures CheckStirs(m, c)
  {
  }

  /** Where the two stir policies disagree: one short passes only with tolerance, two over
      passes only under the shipped rule; both accept exactly `required` and one more. */
  lemma StirPoliciesCompared(c: Cocktail, n: int)
    ensures CheckStirsWithTolerance(StirsRequired(c) - 1, c) && !CheckStirs(StirsRequired(c) - 1, c)
    ensures CheckStirs(StirsRequired(c) + 2, c) && !CheckStirsWithTolerance(StirsRequired(c) + 2, c)
    ensures CheckStirs(n, c) && CheckStirsWithTolerance(n, c) <==> StirsRequired(c) <= n <= StirsRequired(c) + 1
  {
  }

  /** The pours that follow one recipe line literally: `quantity` pours of its type, each
      from a flipped bottle when the type is an alcohol. */
  function Pours(r: Requirement): seq<Poured>
    decreases r.quantity
  {
    if r.quantity <= 0 then []
    else Pours(Requirement(r.kind, r.quantity - 1)) + [Poured(r.kind, IsAlcohol(r.kind))]
  }

  /** The pours that follow a whole recipe, line after line. */
  function PourRecipe(required: seq<Requirement>): seq<Poured> {
    if required == [] then [] else Pours(required[0]) + PourRecipe(required[1..])
  }

  lemma {:induction false} PoursMeet(r: Requirement)
    ensures Meets(r, Pours(r))
    decreases r.quantity
  {
    if r.quantity > 0 {
      var r' := Requirement(r.kind, r.quantity - 1);
      PoursMeet(r');
      var g := Pours(r') + [Poured(r.kind, IsAlcohol(r.kind))];
      assert g[..|g| - 1] == Pours(r');
    }
  }

  /** Following the recipe card always passes the ingredient check, whatever order the
      recipe lists its lines in and however they overlap. */
  lemma {:induction false} FollowingTheRecipePasses(required: seq<Requirement>)
    ensures Judge(required, PourRecipe(required)) == AllPresent
  {
    if required != [] {
      var rest := required[1..];
      FollowingTheRecipePasses(rest);
      JudgeAllPresent(rest, PourRecipe(rest));
      var glass := PourRecipe(required);
      forall i | 0 <= i < |required| ensures Meets(required[i], glass) {
        CountAppend(Pours(required[0]), PourRecipe(rest), required[i].kind);
        if i == 0 {
          PoursMeet(required[0]);
        } else {
          assert required[i] == rest[i - 1];
        }
      }
      JudgeAllPresent(required, glass);
    }
  }
}
